=== FILE: README.md ===
# EPUB-to-audiobook pipeline: text stages, cue decoding and TTS bookkeeping

This project models, in Dafny, the parts of the EPUB-to-audiobook converter
that hold real logic:

- **Clean and chunk** (`scripts/clean_and_chunk.py`):
  - The three text normalisations, in this order: non-breaking spaces,
    em-dash spacing and the whitespace collapse.
  - The heading rewrite, which turns a `#`-heading line into a 1200 ms
    pause, a strong emphasis tag and an 800 ms pause.
  - The paragraph split.
  - Loading the abbreviation table and its built-in fallback.
  - The greedy chunker `split_into_chunks`.
  - The numbered chunk files and the manifest that lists them.
- **Synthesis driver** (`scripts/tts_generate.py`):
  - Decoding the SSML-like cues: break durations are collected, each break
    becomes a space, and emphasis tags are replaced by their text, upper-cased
    for `strong`.
  - The per-entry loop over the manifest: missing text files, read
    failures, and the `.wav` or `.npy` output name.
- **Enhanced TTS layer** (`tts_enhanced.py`):
  - The model registry, `list_available_models`, and the registry check
    and directory names of model download and removal.
  - The voice-clone store: create, list and remove, keyed by the
    directory name derived from the voice name.
  - The engine's cache of loaded models and the list of available voices.
- **Web front end** (`app.py`): the upload-name check `allowed_file`.

## Layout

| file | module | component |
|---|---|---|
| `strings.dfy` | `Strings` | Python string operations: `\s`, `\w`, `lower`/`upper`, `strip`, `replace`, `split`/`join` |
| `numerals.dfy` | `Numerals` | `str(n)`, `int(s)`, `{:04d}`, string order |
| `cues.dfy` | `Cues` | the break and emphasis cue texts |
| `wrappers.dfy` | `Wrappers` | `Option` |
| `normalizer.dfy` | `TextNormalizer` | normalisation, heading rewrite, paragraph split |
| `chunker.dfy` | `Chunker` | abbreviations and `split_into_chunks` |
| `manifest.dfy` | `Manifest` | chunk files and manifest |
| `markup.dfy` | `Markup` | `BREAK`/`EMPH` decoding |
| `synthesis.dfy` | `Synthesis` | the synthesis loop over the manifest |
| `tts_enhanced.dfy` | `TtsEnhanced` | `ModelManager`, `VoiceCloner`, `TtsEngine` |
| `uploads.dfy` | `Uploads` | `allowed_file` |
| `pipeline.dfy` | `Pipeline` | how the stages compose |

The file system is represented by values:
- Written files are a map from path to contents.
- Model directories are a set.
- Voice clones are a map from directory name to metadata.
- Saved audio is a map from path to what was decoded.

Stateful objects are classes whose methods update these fields:
- `ModelManager.dirs`
- `VoiceCloner.clones`
- `TtsEngine.loadedModels`

Loops in the source are methods with loop invariants, each proved equal to a
specification function:
- `split_into_chunks` is `Chunker.SplitIntoChunks`, proved equal to
  `Chunks`, which is defined by the greedy packing `Pack`.
- The abbreviation loop is `Chunker.ExpandAbbreviations`, proved equal to
  `Expand`.
- The heading loop is `TextNormalizer.RewriteHeadings`.
- The manifest loop is `Manifest.BuildManifest`.
- The synthesis loop is `Synthesis.GenerateAll`, proved equal to
  `Outcomes` and `Store`.
- The clone listing is `TtsEnhanced.VoiceCloner.ListVoiceClones`.
- The voice listing is `TtsEnhanced.TtsEngine.GetAvailableVoices`.

### Behaviour of the code worth noting

- **Whitespace collapse.** The `\s+` collapse (`scripts/clean_and_chunk.py:75`)
  runs before the text is split into lines (line 78), and it removes every
  newline. So:
  - The heading pass sees a single line.
  - Only a heading marker at the very start of the book is rewritten, and
    the rest of the book becomes part of that heading's text.
  - The paragraph split always yields exactly one paragraph.
  - A book therefore becomes at most one chunk, whatever `max_chars` is
    (`TextNormalizer.NormalizeDocument`, `Pipeline.BookIsOneChunk`).

  The chunker is still modelled, and proved, for any list of paragraphs.
- **Pause cue length.** The pause cue ` <break time="250ms"/>` is 22
  characters long (`Cues.PauseCueText`). Every kept paragraph counts 22
  characters more towards the budget than its text.
- **What the budget counts.** The budget counts the lengths of the items
  but not the spaces that join them. A chunk of `n` items is
  `n - 1` characters longer than the total that was checked against
  `max_chars` (`Chunker.ChunksWithinBudget`). A single paragraph longer than
  the budget is emitted alone and unsplit.
- **The em-dash rule is not idempotent.** Matches do not overlap, so
  `a—b—c` needs two passes to be fully spaced
  (`TextNormalizer.DashRuleNotIdempotent`).
- **The `.npy` fallback.** It replaces every `.wav` in the whole output
  path, including in directory names (`Synthesis.NpyFallbackRenamesDirectory`).
  Under an output directory such as `out.wavs`, the fallback path names a
  directory `out.npys` that the stage never creates. Unless it already
  exists, the save fails, and the entry is reported and skipped.
- **Chunk file names.** Names sort in chunk order only below 10000 chunks
  (`Manifest.ChunkPathOrderBreaksAt10000`). The same holds for the audio
  files, which the packaging script sorts by name before joining them
  (`Synthesis.WavPathsSortInIndexOrder`, `Synthesis.WavPathOrderBreaksAt10000`).
- **Directory names collide:**
  - Model directories: `a/b` and `a_b` share one directory
    (`TtsEnhanced.ModelDirCollision`).
  - Clones: voice names that differ in letter case, or by a space versus
    `_`, share one clone (`TtsEnhanced.CloneDirNameIgnoresCase`,
    `TtsEnhanced.CloneDirNameSpaceIsUnderscore`).
  - Model cache: keys collide when a tier contains `_`
    (`TtsEnhanced.ModelKeyCollision`).

## Model

| member | source | states |
|---|---|---|
| Strings.Strip | scripts/clean_and_chunk.py:32 | `str.strip`: the result is a piece `s[a..b]` of the input whose cut-off ends are all whitespace; it neither starts nor ends with whitespace, and it is empty exactly when the input is all whitespace |
| Strings.StripLeft | scripts/clean_and_chunk.py:32 | `str.lstrip`: a suffix of the input, not starting with whitespace, after a prefix that is all whitespace |
| Strings.StripRight | scripts/clean_and_chunk.py:32 | `str.rstrip`: a prefix of the input, not ending with whitespace, before a suffix that is all whitespace |
| Strings.ReplaceAll | scripts/clean_and_chunk.py:38 | `str.replace`: left to right, non-overlapping, and an empty key is inserted around every character |
| Strings.ReplaceIsJoinOfSplit | scripts/clean_and_chunk.py:38 | `s.replace(k, v)` equals `v.join(s.split(k))` for a non-empty key |
| Strings.JoinSplit | scripts/clean_and_chunk.py:38 | joining the pieces of a split with the separator gives the text back |
| Strings.ReplaceAbsent | scripts/clean_and_chunk.py:38 | a replacement whose key does not occur leaves the text unchanged |
| Strings.ReplaceCharByChar | scripts/clean_and_chunk.py:73 | replacing one character by one character maps the text character by character, keeping its length |
| Strings.ReplaceRemovesChar | tts_enhanced.py:97 | after a one-character key is replaced by text without it, that character no longer occurs |
| Strings.JoinLength | scripts/clean_and_chunk.py:44 | a join is as long as its parts plus one separator between each pair of neighbours |
| Strings.JoinAppend | scripts/clean_and_chunk.py:44 | joining two non-empty lists puts one separator between their joins |
| Strings.Lower | app.py:61 | `str.lower` on ASCII keeps the length and lowers each character |
| Strings.Upper | scripts/tts_generate.py:37 | `str.upper` on ASCII keeps the length and upper-cases each character |
| Strings.LowerOfUpper | app.py:61 | on ASCII, lowering forgets the case that upper-casing set |
| Numerals.Decimal | scripts/clean_and_chunk.py:103 | `str(n)`: a non-empty string of digits |
| Numerals.ValueLeadingZeros | scripts/clean_and_chunk.py:103 | leading zeros do not change a numeral's value |
| Chunker.LoadAbbreviations | scripts/clean_and_chunk.py:15-25 | a missing file or a load error gives the three built-in entries; a parsed file gives its own mapping, and an empty document gives the empty table, not the default |
| Chunker.Expand | scripts/clean_and_chunk.py:37-38 | the table entries applied one after another, each a `str.replace` of the previous result |
| Chunker.ExpandAbbreviations | scripts/clean_and_chunk.py:37-38 | the loop applies the table entries one after another, each replacing every occurrence of its key, which is the specification `Expand` |
| Chunker.ExpandSequential | scripts/clean_and_chunk.py:37-38 | expanding with `a + b` is expanding with `a`, then with `b`: entries act in table order, so overlapping keys depend on order |
| Chunker.ExpandAbsentKeys | scripts/clean_and_chunk.py:37-38 | a paragraph in which no key occurs is unchanged by expansion |
| Chunker.ExpandKeepsOut | scripts/clean_and_chunk.py:37-38 | a character that is neither in the paragraph nor in any replacement is not in the result |
| Chunker.SplitIntoChunks | scripts/clean_and_chunk.py:28-51 | the chunk generator yields exactly `Chunks`, the greedy packing of the stripped, expanded, pause-terminated non-blank paragraphs; its invariant ties the running total `acc` to the lengths in the open chunk |
| Chunker.PrepareCons | scripts/clean_and_chunk.py:32-41 | a blank paragraph is skipped; any other becomes one item: stripped, expanded and followed by the pause cue |
| Chunker.PreparedItems | scripts/clean_and_chunk.py:32-41 | every item comes from a non-blank input paragraph and ends with the 22-character 250 ms pause cue |
| Chunker.KeptFromParagraph | scripts/clean_and_chunk.py:32-34 | every kept paragraph is a non-blank paragraph of the input |
| Chunker.PrepareAppend | scripts/clean_and_chunk.py:31-41 | paragraphs are prepared independently: preparing a concatenation concatenates the preparations |
| Chunker.BlankParagraphIgnored | scripts/clean_and_chunk.py:32-34 | inserting an empty or whitespace-only paragraph anywhere changes no chunk |
| Chunker.SingleParagraphOneChunk | scripts/clean_and_chunk.py:28-51 | a single non-blank paragraph yields exactly one chunk, whatever the budget |
| Chunker.Pack | scripts/clean_and_chunk.py:43-51 | the greedy packing of prepared items into groups, from an open group |
| Chunker.PackStep | scripts/clean_and_chunk.py:43-48 | an item that would push a non-empty group over the budget closes the group and opens a new one; otherwise it joins the group |
| Chunker.PackFlatten | scripts/clean_and_chunk.py:43-51 | packing loses, duplicates and reorders no item: the groups, concatenated, are the open group followed by the items |
| Chunker.PackNonEmpty | scripts/clean_and_chunk.py:43-51 | no group is empty, and a non-empty open group starts the first group |
| Chunker.PackWithinBudget | scripts/clean_and_chunk.py:43-48 | starting from an open group that fits, every group of two or more items fits the budget |
| Chunker.PackGreedy | scripts/clean_and_chunk.py:43-45 | a group is closed only when the next group's first item would have pushed it over the budget |
| Chunker.JoinRender | scripts/clean_and_chunk.py:44-51 | joining the rendered groups with spaces equals joining all their items with spaces |
| Chunker.Chunks | scripts/clean_and_chunk.py:28-51 | the chunks the generator yields: the packed groups of prepared paragraphs, each joined by single spaces |
| Chunker.ChunksPreserveContent | scripts/clean_and_chunk.py:28-51 | every chunk holds at least one paragraph, the groups concatenated are the prepared paragraphs in order, and the chunks joined by spaces equal the prepared paragraphs joined by spaces |
| Chunker.ChunksWithinBudget | scripts/clean_and_chunk.py:43-51 | a chunk of two or more paragraphs has item lengths summing to at most `max_chars`; its text is longer by one character per joining space |
| Chunker.OversizedParagraphAlone | scripts/clean_and_chunk.py:43-48 | a paragraph longer than the budget forms a chunk on its own and is emitted unsplit |
| Chunker.ChunksGreedy | scripts/clean_and_chunk.py:43-45 | each chunk is closed only because the next chunk's first paragraph would have pushed it over the budget |
| Chunker.Render | scripts/clean_and_chunk.py:44-51 | one chunk per group, each being its paragraphs joined by single spaces |
| TextNormalizer.ReplaceNbsp | scripts/clean_and_chunk.py:73 | same length; each non-breaking space becomes a space and every other character is kept |
| TextNormalizer.SpaceEmDashes | scripts/clean_and_chunk.py:74 | the em-dash rule as a left-to-right, non-overlapping scan: a match is rewritten and the scan resumes after it, otherwise one character is kept |
| TextNormalizer.DashRuleOnlyInsertsSpaces | scripts/clean_and_chunk.py:74 | the em-dash rule only inserts spaces: the visible characters are kept, in order |
| TextNormalizer.DashFreeUnchanged | scripts/clean_and_chunk.py:74 | text without an em-dash passes the rule unchanged |
| TextNormalizer.DashFreePrefix | scripts/clean_and_chunk.py:74 | dash-free text in front of text that does not start with an em-dash is kept, and the scan goes on after it |
| TextNormalizer.SpaceEmDashBetween | scripts/clean_and_chunk.py:74 | an em-dash between two word characters behind dash-free text gets one space on each side, and the scan resumes after the second word character |
| TextNormalizer.DashRuleNotIdempotent | scripts/clean_and_chunk.py:74 | matches do not overlap: `a—b—c` gets only its first dash spaced, and a second pass changes it again |
| TextNormalizer.CollapseWhitespace | scripts/clean_and_chunk.py:75 | the result holds no whitespace but single ordinary spaces, is empty only for empty input, and starts with a space exactly when the input starts with whitespace |
| TextNormalizer.CollapseKeepsContent | scripts/clean_and_chunk.py:75 | the collapse only changes whitespace: the visible characters are kept, in order |
| TextNormalizer.CollapseFixesCollapsed | scripts/clean_and_chunk.py:75 | text that is already collapsed is a fixed point |
| TextNormalizer.CollapseIdempotent | scripts/clean_and_chunk.py:75 | collapsing twice is collapsing once |
| TextNormalizer.StripLeftRun | scripts/clean_and_chunk.py:75 | a whitespace run is consumed whole, up to the first visible character |
| TextNormalizer.CollapseRun | scripts/clean_and_chunk.py:75 | a whitespace run in front of visible text, or at the end, becomes one space in its place |
| TextNormalizer.StripLeftAppend | scripts/clean_and_chunk.py:75 | a whitespace run that ends inside a text is not extended by what follows the text |
| TextNormalizer.CollapseAppend | scripts/clean_and_chunk.py:75 | text ending with a visible character collapses the same whatever follows it |
| TextNormalizer.CollapseRunBetween | scripts/clean_and_chunk.py:75 | a whitespace run between two visible characters becomes exactly one space there, so words are never merged |
| TextNormalizer.CollapseLineBreak | scripts/clean_and_chunk.py:75 | `x`, newline, `y` becomes `x`, space, `y` |
| TextNormalizer.CollapseLast | scripts/clean_and_chunk.py:75 | the result of a non-empty input is non-empty and ends with a space exactly when the input ends with whitespace |
| TextNormalizer.NormalizeKeepsContent | scripts/clean_and_chunk.py:73-75 | the three substitutions together keep the visible characters of the book, in order |
| TextNormalizer.NormalizeAddsNoVisibleChar | scripts/clean_and_chunk.py:73-75 | a visible character absent from the book, `<` for example, is absent after normalisation |
| TextNormalizer.CollapsedHasNoNewline | scripts/clean_and_chunk.py:75-78 | no newline survives the collapse, so the line split that follows sees one line |
| TextNormalizer.LeadingHashes | scripts/clean_and_chunk.py:82 | the count of leading `#` characters: all of them are `#` and the next character is not |
| TextNormalizer.IsHeading | scripts/clean_and_chunk.py:82 | `re.match(r'^#{1,6}\s+', line)`: one to six leading hashes followed by whitespace; seven or more never match |
| TextNormalizer.HeadingText | scripts/clean_and_chunk.py:84 | what the heading substitution leaves: the line without its hashes and without the whole whitespace run after them |
| TextNormalizer.HeadingParts | scripts/clean_and_chunk.py:82-84 | a heading line is 1 to 6 hashes, then a non-empty whitespace run, then the heading text, which does not itself start with whitespace |
| TextNormalizer.HeadingExample | scripts/clean_and_chunk.py:82-85 | `## Chapter 1` is a heading and becomes the heading cue around `Chapter 1` |
| TextNormalizer.RewriteHeadings | scripts/clean_and_chunk.py:79-87 | one output line per input line: a heading line becomes the 1200 ms pause, the strong-emphasis title and the 800 ms pause; any other line is kept |
| TextNormalizer.RewriteLineKeepsNoNewline | scripts/clean_and_chunk.py:80-87 | the heading rewrite adds no newline |
| TextNormalizer.SplitParagraphs | scripts/clean_and_chunk.py:91 | `re.split` on two or more newlines always yields at least one paragraph |
| TextNormalizer.SplitParagraphsNoNewline | scripts/clean_and_chunk.py:91 | text without a newline is one paragraph, itself |
| TextNormalizer.SplitParagraphsPieces | scripts/clean_and_chunk.py:91 | no paragraph holds two newlines in a row, and the first paragraph is a prefix of the text |
| TextNormalizer.SplitParagraphsFirst | scripts/clean_and_chunk.py:91 | the first paragraph is the text up to its first run of two or more newlines, or all of it when there is none; the other paragraphs are the split of what follows that whole run |
| TextNormalizer.NormalizeDocument | scripts/clean_and_chunk.py:73-91 | the normaliser as run yields exactly one paragraph, with no newline; it is the heading cue when the normalised book starts with a heading marker, and the normalised text otherwise |
| Cues.PauseCueText | scripts/clean_and_chunk.py:41 | the paragraph pause cue is ` <break time="250ms"/>`, 22 characters |
| Cues.HeadingCueText | scripts/clean_and_chunk.py:85 | the heading cue spelled out: 1200 ms break, strong emphasis around the title, 800 ms break |
| Cues.HeadingCueNewlines | scripts/clean_and_chunk.py:85 | a heading cue holds a newline exactly when its title does |
| Manifest.BuildManifest | scripts/clean_and_chunk.py:101-105 | entry `i` is `{idx: i, text_file: chunk_{i:04d}.txt}`, one per chunk in emission order; each chunk file holds its chunk, and every other file keeps its contents |
| Manifest.ChunkPathInjective | scripts/clean_and_chunk.py:103 | distinct chunks never share a file |
| Manifest.ChunkPathsSortInIndexOrder | scripts/clean_and_chunk.py:103 | below 10000 chunks, the file names sort in chunk order |
| Manifest.ChunkPathOrderBreaksAt10000 | scripts/clean_and_chunk.py:103 | the file of chunk 10000 sorts before that of chunk 9999 |
| Synthesis.WavPathsSortInIndexOrder | scripts/package_m4b.py:89 | below 10000 chunks, sorting the audio file names lists them in chunk order |
| Synthesis.WavPathOrderBreaksAt10000 | scripts/package_m4b.py:89 | the audio of chunk 10000 sorts before that of chunk 9999 |
| Numerals.Format04 | scripts/clean_and_chunk.py:103 | `{:04d}` on a natural number gives at least four digits |
| Numerals.Format04Value | scripts/clean_and_chunk.py:103 | the zero-padded numeral still denotes its number |
| Numerals.Format04Width | scripts/clean_and_chunk.py:103 | below 10000 the padded numeral has exactly four characters |
| Numerals.Format04Injective | scripts/clean_and_chunk.py:103 | distinct numbers give distinct padded numerals |
| Numerals.Format04Order | scripts/clean_and_chunk.py:103 | below 10000, string order of the padded numerals is numeric order |
| Numerals.EqualLengthOrder | scripts/clean_and_chunk.py:103 | for digit strings of equal length, string order is numeric order |
| Numerals.ValueOfDecimal | scripts/tts_generate.py:35 | `int(str(n)) == n` |
| Markup.DigitRun | scripts/tts_generate.py:25 | the greedy `\d+`: the longest all-digit prefix |
| Markup.WordRun | scripts/tts_generate.py:26 | the greedy `\w+`: the longest word-character prefix |
| Markup.MatchBreak | scripts/tts_generate.py:25 | a `BREAK` match has a non-empty digit string and a positive length within the text |
| Markup.MatchBreakSound | scripts/tts_generate.py:25 | the text a `BREAK` match covers is exactly the break cue of the digits it captures |
| Markup.FindClose | scripts/tts_generate.py:26 | the lazy `(.*?)` stops at a closing tag position that lies inside the text |
| Markup.FindCloseSound | scripts/tts_generate.py:26 | the lazy `(.*?)`: the returned index starts a closing tag, no newline precedes it, and no earlier index starts one |
| Markup.MatchEmph | scripts/tts_generate.py:26 | an `EMPH` match has a positive length within the text |
| Markup.MatchAfterLevelSound | scripts/tts_generate.py:26 | after the level, the match captures the text up to the first closing tag, with no newline, and its length counts every piece of the tag |
| Markup.MatchAfterOpenSound | scripts/tts_generate.py:26 | after the opening, the match covers a non-empty word level, `">`, a newline-free text and the closing tag |
| Markup.MatchEmphSound | scripts/tts_generate.py:26 | the text an `EMPH` match covers is exactly the emphasis tag of the captured level and text; the level is a non-empty word and the text has no newline |
| Markup.BreakValues | scripts/tts_generate.py:35 | `BREAK.findall` with `int`: the scan takes each match's value and resumes after it, otherwise it moves on one character |
| Markup.SubBreaks | scripts/tts_generate.py:36 | `BREAK.sub(" ", ...)`: each match becomes one space, every other character is kept |
| Markup.SubEmph | scripts/tts_generate.py:37 | `EMPH.sub`: each match becomes its text, upper-cased for the `strong` level, every other character is kept |
| Markup.Decode | scripts/tts_generate.py:35-37 | the pauses are read from the chunk text, the breaks are replaced, then the emphasis tags |
| Markup.NoCueAt | scripts/tts_generate.py:25-26 | no cue starts at a character other than `<` |
| Markup.PlainPrefixBreaks | scripts/tts_generate.py:35-36 | text without `<` contributes no pause and passes the break substitution unchanged |
| Markup.PlainPrefixEmph | scripts/tts_generate.py:37 | text without `<` passes the emphasis substitution unchanged |
| Markup.PlainText | scripts/tts_generate.py:35-37 | text without `<` decodes to itself, with no pauses |
| Markup.AngleNotBreak | scripts/tts_generate.py:25-36 | a `<` not followed by `b` starts no break |
| Markup.MatchBreakCue | scripts/tts_generate.py:25 | a break cue with a non-empty digit string matches in full |
| Markup.BreakCueDecodes | scripts/tts_generate.py:35-36 | a break cue in front of any text is read as one pause of its value and becomes one space |
| Markup.BreakRoundTrip | scripts/tts_generate.py:35-36 | a break written with `str(n)` is read back as exactly `n` |
| Markup.FindCloseAfter | scripts/tts_generate.py:26 | in text without `<` or newline, the lazy match stops at the closing tag that follows it |
| Markup.MatchEmphTag | scripts/tts_generate.py:26 | a tag with a word-character level and newline-free, tag-free text matches in full, capturing the level and the text |
| Markup.EmphStepSome | scripts/tts_generate.py:37 | a match is replaced by its text, upper-cased when the level is `strong`, and the scan resumes after it |
| Markup.EmphasisDecodes | scripts/tts_generate.py:37 | a well-formed emphasis tag becomes its text, upper-cased exactly for the `strong` level |
| Markup.EmphasisTagHasNoBreak | scripts/tts_generate.py:35-36 | an emphasis tag whose level and text hold no `<` contributes no pause |
| Markup.HeadingPauses | scripts/tts_generate.py:35 | the pauses of a heading cue are 1200 then 800 |
| Markup.HeadingBreaksRemoved | scripts/tts_generate.py:36 | each break of a heading cue becomes a space around the emphasis tag |
| Markup.HeadingDecodes | scripts/tts_generate.py:35-37 | a heading cue decodes to pauses `[1200, 800]` and to the upper-cased title between two spaces |
| Markup.PausedBreaks | scripts/tts_generate.py:35-36 | a paragraph without `<` followed by the pause cue yields the single pause 250 and the paragraph followed by two spaces |
| Markup.PausedParagraphDecodes | scripts/tts_generate.py:35-37 | such a paragraph decodes to `[250]` and the paragraph followed by two spaces |
| Synthesis.GenerateAll | scripts/tts_generate.py:128-153 | the loop's outcome for each entry, in order, and the audio saved after it are those of the specification functions `Outcomes` and `Store` |
| Synthesis.Outcomes | scripts/tts_generate.py:128-153 | one outcome per manifest entry |
| Synthesis.NpyName | scripts/tts_generate.py:148 | a dot-free name ending `.wav` becomes the same name ending `.npy` |
| Synthesis.OutputPath | scripts/tts_generate.py:142-148 | the `.wav` name with an audio writer, otherwise that name with every `.wav` replaced by `.npy` |
| Synthesis.OutputPathShape | scripts/tts_generate.py:142-148 | with an audio writer, or a dot-free directory, the output is `chunk_{idx:04d}` with `.wav` or `.npy` |
| Synthesis.OutputPathInjective | scripts/tts_generate.py:142-148 | under the same condition, distinct indices get distinct outputs |
| Synthesis.NpyFallbackRenamesDirectory | scripts/tts_generate.py:148 | every `.wav` in the path is replaced: under a directory `out.wavs` the fallback path names a file in `out.npys`, a directory the stage never creates |
| Synthesis.Store | scripts/tts_generate.py:144-148 | the audio on disk after the loop: each saved outcome, in order, writes its path |
| Synthesis.StoreKeys | scripts/tts_generate.py:144-148 | a path holds audio afterwards exactly when it held audio before or some entry saved there |
| Synthesis.StoreUntouched | scripts/tts_generate.py:144-148 | a path to which no entry saves keeps its audio |
| Synthesis.StoreLatest | scripts/tts_generate.py:144-148 | what a path holds at the end is what the last entry that saved there saved |
| Synthesis.SavedAudio | scripts/tts_generate.py:136-148 | with distinct indices, every entry whose text is readable ends with its decoded text saved under its own name |
| Synthesis.MissingTextSavesNothing | scripts/tts_generate.py:132-134 | an entry whose text file is missing saves nothing |
| Synthesis.OtherFilesUnchanged | scripts/tts_generate.py:128-153 | a path that is no entry's output keeps its audio |
| Pipeline.BookIsOneChunk | scripts/clean_and_chunk.py:91-102 | the one paragraph the normaliser produces gives no chunk when blank, and otherwise one chunk: the stripped, expanded text plus one pause cue |
| Pipeline.PlainBookDecodes | scripts/tts_generate.py:35-37 | a book without `<` and without a leading heading is synthesised from one chunk with exactly one pause of 250 ms |
| Pipeline.ChunkAudio | scripts/tts_generate.py:128-153 | when the manifest lists every chunk file, the audio saved for chunk `i` is the decoding of chunk `i`, under `chunk_{i:04d}` |
| TtsEnhanced.ModelManager.ListAvailableModels | tts_enhanced.py:62-66 | a truthy tier gives that tier's models, or an empty mapping for an unknown tier; no tier, or an empty one, gives the whole registry |
| TtsEnhanced.ModelManager.DownloadModel | tts_enhanced.py:90-140 | succeeds exactly for a model in the tier's registry and then adds its directory; otherwise fails and creates nothing |
| TtsEnhanced.ModelManager.RemoveModel | tts_enhanced.py:142-156 | succeeds exactly when the model's directory exists, and afterwards it does not |
| TtsEnhanced.ModelDir | tts_enhanced.py:97 | the models directory, the tier, and the model name with every `/` replaced by `_` |
| TtsEnhanced.ModelDirShape | tts_enhanced.py:97 | a model directory sits one level below its tier, and its name has no `/` and is as long as the model name |
| TtsEnhanced.ModelDirCollision | tts_enhanced.py:145 | `a/b` and `a_b` share one directory |
| TtsEnhanced.RegistryDirsDistinct | tts_enhanced.py:93-97 | within a tier, the registry's models have distinct directories |
| TtsEnhanced.CloneDirName | tts_enhanced.py:212 | on ASCII, the directory name is as long as the voice name and holds no space and no upper-case letter |
| TtsEnhanced.CloneDirNameIdempotent | tts_enhanced.py:212 | a directory name is its own directory name |
| TtsEnhanced.CloneDirNameChars | tts_enhanced.py:212 | on ASCII, each character of the directory name depends only on the matching character of the voice name |
| TtsEnhanced.CloneDirNameIgnoresCase | tts_enhanced.py:212 | names that differ only in ASCII letter case share a clone |
| TtsEnhanced.CloneDirNameSpaceIsUnderscore | tts_enhanced.py:212 | a space and `_` at the same place lead to the same clone |
| TtsEnhanced.VoiceCloner.CreateVoiceClone | tts_enhanced.py:200-255 | fails and changes nothing when the sample is missing; otherwise saves the metadata under the clone's directory name, replacing any clone already there |
| TtsEnhanced.VoiceCloner.ListVoiceClones | tts_enhanced.py:257-275 | lists every stored clone exactly once, with its directory name as id, its directory as path and its saved metadata |
| TtsEnhanced.VoiceCloner.RemoveVoiceClone | tts_enhanced.py:277-291 | succeeds exactly when a clone with that id exists, and afterwards none does |
| TtsEnhanced.ResolveDevice | tts_enhanced.py:324-325 | `auto` resolves to `cuda` exactly for the studio tier and to `cpu` for any other; an explicit device is kept |
| TtsEnhanced.ModelKey | tts_enhanced.py:327 | the cache key is the tier, `_`, and the model name |
| TtsEnhanced.ModelKeyInjective | tts_enhanced.py:327 | with tiers free of `_`, distinct requests have distinct cache keys |
| TtsEnhanced.ModelKeyCollision | tts_enhanced.py:327 | a tier containing `_` lets two different requests share a key |
| TtsEnhanced.TtsEngine.LoadModel | tts_enhanced.py:321-350 | a hit returns the cached record and changes nothing, whatever the device; a miss stores a fresh `loaded` record on the resolved device and touches no other entry; afterwards the key holds the returned record |
| TtsEnhanced.TtsEngine.GetAvailableVoices | tts_enhanced.py:372-392 | the three default voices, then one `clone_<id>` voice per clone, in list order |
| TtsEnhanced.VoiceIdsDistinct | tts_enhanced.py:375-390 | when clone ids are distinct, all voice ids are distinct |
| Uploads.AfterLastDot | app.py:61 | `rsplit('.', 1)[1]`: the longest dot-free suffix, preceded by the last dot when there is one |
| Uploads.AllowedFile | app.py:60-61 | the acceptance test as written: the name holds a dot and its text after the last dot, lowered, is an allowed extension |
| Uploads.AllowedFileIff | app.py:60-61 | a name is accepted exactly when it is some text, a dot, and a dot-free extension that lowers to `epub` |
| Uploads.AcceptsExtension | app.py:60-61 | with a dot-free extension, acceptance depends on the extension alone |
| Uploads.AllowedExtensionAccepted | app.py:51-61 | any name ending in a dot and an allowed extension is accepted, whatever precedes it |
| Uploads.CaseIgnored | app.py:60-61 | upper-casing the extension does not change acceptance |
| Uploads.ZipRejected | app.py:60-61 | only the last extension counts: `.zip` is rejected whatever precedes it |
| Uploads.TrailingDotRejected | app.py:60-61 | a trailing dot leaves an empty extension, which is rejected |

## Left out

- File I/O, JSON and YAML parsing, command-line arguments, logging and
  printing are not modelled. The file system is the maps and sets described
  above, and a YAML load is represented by its outcome (`AbbrFile`).
- Character classes are modelled as follows:
  - `\s` and `str.strip` use the exact whitespace set of `str.isspace`.
  - `\w`, `\d`, `str.lower` and `str.upper` are modelled on ASCII only.
    Non-ASCII letters and digits, and multi-character case mappings such as
    `ß`, are not captured.
- Chunker.LoadAbbreviations: a YAML document that loads to a truthy value
  other than a mapping (a list, a number, a string), or to a mapping with
  keys or values that are not strings, is not representable. The source
  accepts such a table and then fails at `.items()` or `str.replace`
  (`scripts/clean_and_chunk.py:37-38`) once a non-blank paragraph is reached.
- Chunker.ExpandAbbreviations: the table is a sequence in the mapping's
  iteration order, which the YAML load determines. That order is an input.
- `pathlib` path handling is reduced to joining with `/`. The model does not
  capture:
  - normalisation of `.`, `..` or repeated slashes;
  - a voice name containing `/`, which `mkdir` would turn into nested
    directories;
  - the empty voice name, whose clone directory would be the voices
    directory itself.
- `download_model` after the registry check is reduced to creating the model
  directory. The Hugging Face download, the file filtering and the progress
  callback are calls into code outside the model. So is
  `search_huggingface_models`.
- `list_installed_models` and `_get_folder_size` are not modelled. They only
  read directory listings and sizes from the file system.
- `synthesize` and the `size_gb` registry field are not modelled: the first
  returns a fixed placeholder path, the second is a float.
- `_validate_audio` is modelled as "the file exists". Its other checks are
  comments in the source.
- The voice-clone store is modelled as a map from directory name to saved
  metadata. Because of that:
  - `list_voice_clones` skipping directories without metadata, or with
    unreadable metadata, is not modelled.
  - The order of `iterdir` is not modelled: the listing is proved to hold
    every clone once, in some order.
- TtsEnhanced.ModelManager.RemoveModel: for the empty model name the source's
  path is the tier directory itself. When it exists, the source deletes it,
  with every model of that tier, and returns true. The model's path for the
  empty name is never an installed model, so it returns false and keeps
  every model.
- TtsEnhanced.VoiceCloner.RemoveVoiceClone: the source succeeds and deletes
  any existing directory `voices_dir/voice_id`. That includes a clone
  directory without `voice.json`, and, for the empty id, the voices directory
  itself with every clone in it. The model tracks only clones with saved
  metadata and returns false in both cases.
- Clone metadata (`VoiceMeta`): the reference-audio copy and the
  `created_at` and `status` fields are not modelled.
- Audio is not modelled:
  - the placeholder silence, its float duration, and the 24000 Hz writer
    are left out;
  - what is saved for a chunk is represented by its decoding (pauses and
    plain text);
  - a failure while writing is not modelled.
- Synthesis.GenerateAll: any exception other than a missing or unreadable
  text file is not modelled, nor is `tqdm`. In particular, the fallback save
  into a directory that was never created (`out.npys` under `out.wavs`)
  raises in the source, which then skips the entry. The model records that
  entry as saved.
- Manifest.Entry: indices are natural numbers. A manifest with negative
  `idx`, which `{:04d}` would format with a sign, is not modelled.
- The Flask application apart from `allowed_file`, the background threads,
  and the other scripts (EPUB extraction, mastering, and packaging apart from
  its sort of the audio files) are not part of this model.

=== FILE: chunker.dfy ===
/** The chunker of the clean-and-chunk stage: abbreviation table loading and
    the greedy, single-pass, order-preserving packing of paragraphs into
    chunks under a character budget. */
module Chunker {
  import opened Strings
  import opened Cues

  /** An abbreviation table in the mapping's iteration order. */
  type Table = seq<(string, string)>

  /** What reading the abbreviation file gave: no file, an error while
      opening or parsing it, or the loaded mapping (empty when the document
      is empty or null). */
  datatype AbbrFile = Missing | LoadFailed | Parsed(table: Table)

  const DefaultAbbreviations: Table :=
    [("Mr.", "Mister"), ("Dr.", "Doctor"), ("e.g.", "for example")]

  /** A missing or unreadable file falls back to the three built-in entries;
      a file that loads to nothing gives an empty table, not the default. */
  function LoadAbbreviations(file: AbbrFile): (table: Table)
    ensures file.Missing? || file.LoadFailed? ==> table == DefaultAbbreviations
    ensures file.Parsed? ==> table == file.table
    ensures file == Parsed([]) ==> table == [] && table != DefaultAbbreviations
  {
    match file
    case Parsed(t) => t
    case _ => DefaultAbbreviations
  }

  /** The replacements of the first `|table|` entries, applied in table
      order, each to every occurrence of its key. */
  function Expand(p: string, table: Table): string
    decreases |table|
  {
    if table == [] then p
    else ReplaceAll(Expand(p, table[..|table| - 1]), table[|table| - 1].0, table[|table| - 1].1)
  }

  /** An empty or whitespace-only paragraph. */
  predicate Blank(para: string) {
    forall k :: 0 <= k < |para| ==> IsSpace(para[k])
  }

  /** The paragraphs that are not blank, in order. */
  function Kept(paras: seq<string>): (kept: seq<string>)
    ensures |kept| <= |paras|
  {
    if paras == [] then []
    else if Blank(paras[0]) then Kept(paras[1..])
    else [paras[0]] + Kept(paras[1..])
  }

  /** One kept paragraph as the chunker packs it: stripped, abbreviations
      expanded, pause cue appended. */
  function Item(para: string, table: Table): string {
    Expand(Strip(para), table) + PauseCue
  }

  /** `f` applied to each paragraph, in order. */
  function Items(kept: seq<string>, f: string -> string): (items: seq<string>)
    ensures |items| == |kept|
  {
    if kept == [] then [] else [f(kept[0])] + Items(kept[1..], f)
  }

  /** The items the chunker packs, one per kept paragraph, in order. */
  function Prepare(paras: seq<string>, table: Table): seq<string> {
    Items(Kept(paras), para => Item(para, table))
  }

  /** Greedy packing with an open group `chunk`: an item that would push the
      group's total length over `maxChars` closes a non-empty group and opens
      the next one; an empty group always takes the item. */
  function Pack(items: seq<string>, maxChars: int, chunk: seq<string>): seq<seq<string>>
    decreases |items|
  {
    if items == [] then (if chunk == [] then [] else [chunk])
    else if SumLen(chunk) + |items[0]| > maxChars && chunk != [] then
      [chunk] + Pack(items[1..], maxChars, [items[0]])
    else Pack(items[1..], maxChars, chunk + [items[0]])
  }

  /** Each group rendered as its items joined by single spaces. */
  function Render(groups: seq<seq<string>>): (r: seq<string>)
    ensures |r| == |groups|
    ensures forall k :: 0 <= k < |groups| ==> r[k] == Join(" ", groups[k])
  {
    seq(|groups|, k requires 0 <= k < |groups| => Join(" ", groups[k]))
  }

  function Groups(paras: seq<string>, maxChars: int, table: Table): seq<seq<string>> {
    Pack(Prepare(paras, table), maxChars, [])
  }

  /** The chunk texts `split_into_chunks` yields, in order. */
  function Chunks(paras: seq<string>, maxChars: int, table: Table): seq<string> {
    Render(Groups(paras, maxChars, table))
  }

  ghost function Flatten(groups: seq<seq<string>>): seq<string> {
    if groups == [] then [] else groups[0] + Flatten(groups[1..])
  }

  ghost predicate NonEmptyGroups(groups: seq<seq<string>>) {
    forall k :: 0 <= k < |groups| ==> groups[k] != []
  }

  /** Every group of two or more items fits the budget. */
  ghost predicate WithinBudget(groups: seq<seq<string>>, maxChars: int) {
    forall k :: 0 <= k < |groups| && |groups[k]| >= 2 ==> SumLen(groups[k]) <= maxChars
  }

  /** No group could have taken the first item of the next one. */
  ghost predicate Greedy(groups: seq<seq<string>>, maxChars: int) {
    forall k, l :: 0 <= k < l < |groups| && l == k + 1 ==>
      groups[l] != [] && SumLen(groups[k]) + |groups[l][0]| > maxChars
  }

  /** The inner loop of `split_into_chunks`: each table entry in turn
      replaces every occurrence of its key in the paragraph. */
  method ExpandAbbreviations(text: string, abbreviations: Table) returns (p: string)
    ensures p == Expand(text, abbreviations)
  {
    p := text;
    for j := 0 to |abbreviations|
      invariant p == Expand(text, abbreviations[..j])
    {
      assert abbreviations[..j + 1][..j] == abbreviations[..j];
      p := ReplaceAll(p, abbreviations[j].0, abbreviations[j].1);
    }
    assert abbreviations[..|abbreviations|] == abbreviations;
  }

  /** `split_into_chunks`: the accumulator `chunk` and its running length
      `acc` are flushed as one chunk when the next paragraph does not fit. */
  method SplitIntoChunks(paragraphs: seq<string>, maxChars: int, abbreviations: Table)
    returns (chunks: seq<string>)
    ensures chunks == Chunks(paragraphs, maxChars, abbreviations)
  {
    var chunk: seq<string> := [];
    var acc := 0;
    chunks := [];
    ghost var target := Chunks(paragraphs, maxChars, abbreviations);
    assert paragraphs[0..] == paragraphs;
    for i := 0 to |paragraphs|
      invariant acc == SumLen(chunk)
      invariant chunks + Render(Pack(Prepare(paragraphs[i..], abbreviations), maxChars, chunk)) == target
    {
      ghost var here, rest := Prepare(paragraphs[i..], abbreviations), Prepare(paragraphs[i + 1..], abbreviations);
      assert paragraphs[i..][1..] == paragraphs[i + 1..];
      var p := Strip(paragraphs[i]);
      if p == [] {
        assert here == rest by {
          PrepareCons(paragraphs[i..], abbreviations);
        }
      } else {
        p := ExpandAbbreviations(p, abbreviations);
        p := p + PauseCue;
        assert here == [p] + rest by {
          PrepareCons(paragraphs[i..], abbreviations);
        }
        PackStep(p, rest, maxChars, chunk);
        assert SumLen([p]) == |p| by {
          assert [p][1..] == [];
        }
        if acc + |p| > maxChars && chunk != [] {
          ghost var done, closed := chunks, chunk;
          chunks := chunks + [Join(" ", chunk)];
          chunk, acc := [p], |p|;
          assert chunks + Render(Pack(rest, maxChars, chunk)) == target by {
            AppendAssoc(done, [Join(" ", closed)], Render(Pack(rest, maxChars, [p])));
          }
        } else {
          assert SumLen(chunk + [p]) == acc + |p| by {
            SumLenAppend(chunk, [p]);
          }
          chunk, acc := chunk + [p], acc + |p|;
        }
      }
    }
    assert paragraphs[|paragraphs|..] == [];
    assert Prepare([], abbreviations) == [];
    if chunk != [] {
      assert Render([chunk]) == [Join(" ", chunk)];
      chunks := chunks + [Join(" ", chunk)];
    } else {
      assert chunks + [] == chunks;
    }
  }

  // ---------------------------------------------------------------------
  // The paragraphs that are kept
  // ---------------------------------------------------------------------

  /** One step of `Prepare`: a blank first paragraph is skipped, any other
      becomes the first item. */
  lemma PrepareCons(paras: seq<string>, table: Table)
    requires paras != []
    ensures Blank(paras[0]) ==> Prepare(paras, table) == Prepare(paras[1..], table)
    ensures !Blank(paras[0]) ==>
      Prepare(paras, table) == [Expand(Strip(paras[0]), table) + PauseCue] + Prepare(paras[1..], table)
  {
  }

  lemma {:induction false} KeptAppend(a: seq<string>, b: seq<string>)
    ensures Kept(a + b) == Kept(a) + Kept(b)
  {
    if a == [] {
      assert a + b == b;
    } else {
      var x := if Blank(a[0]) then [] else [a[0]];
      calc {
        Kept(a + b);
        { assert (a + b)[1..] == a[1..] + b; }
        x + Kept(a[1..] + b);
        { KeptAppend(a[1..], b); }
        x + (Kept(a[1..]) + Kept(b));
        { AppendAssoc(x, Kept(a[1..]), Kept(b)); }
        Kept(a) + Kept(b);
      }
    }
  }

  lemma PrepareAppend(a: seq<string>, b: seq<string>, table: Table)
    ensures Prepare(a + b, table) == Prepare(a, table) + Prepare(b, table)
  {
    KeptAppend(a, b);
    ItemsAppend(Kept(a), Kept(b), para => Item(para, table));
  }

  lemma {:induction false} ItemsAppend(a: seq<string>, b: seq<string>, f: string -> string)
    ensures Items(a + b, f) == Items(a, f) + Items(b, f)
    decreases |a|
  {
    if a == [] {
      assert a + b == b;
    } else {
      var x, p, q := f(a[0]), Items(a[1..], f), Items(b, f);
      assert Items(a + b, f) == [x] + Items(a[1..] + b, f) by {
        assert (a + b)[1..] == a[1..] + b;
      }
      assert Items(a[1..] + b, f) == p + q by {
        ItemsAppend(a[1..], b, f);
      }
      assert [x] + (p + q) == ([x] + p) + q;
    }
  }


  lemma {:induction false} ItemsIndex(kept: seq<string>, f: string -> string, i: nat)
    requires i < |kept|
    ensures Items(kept, f)[i] == f(kept[i])
  {
    if i > 0 {
      ItemsIndex(kept[1..], f, i - 1);
    }
  }

  /** Every kept paragraph is a non-blank paragraph of the input. */
  lemma {:induction false} KeptFromParagraph(paras: seq<string>, i: nat)
    requires i < |Kept(paras)|
    ensures !Blank(Kept(paras)[i]) && Kept(paras)[i] in paras
  {
    if Blank(paras[0]) {
      KeptFromParagraph(paras[1..], i);
    } else if i > 0 {
      KeptFromParagraph(paras[1..], i - 1);
    }
  }

  /** Each item is the stripped text of a non-blank paragraph with the
      abbreviations expanded, ending in the 22-character pause cue. */
  lemma PreparedItems(paras: seq<string>, table: Table, i: nat)
    requires i < |Prepare(paras, table)|
    ensures var item := Prepare(paras, table)[i];
      && |item| >= 22
      && item[|item| - 22..] == " <break time=\"250ms\"/>"
      && exists para :: para in paras && !Blank(para) && item == Expand(Strip(para), table) + PauseCue
  {
    PauseCueText();
    KeptFromParagraph(paras, i);
    ItemsIndex(Kept(paras), para => Item(para, table), i);
    var para := Kept(paras)[i];
    assert para in paras && !Blank(para);
  }

  /** An empty or whitespace-only paragraph produces nothing: removing it
      changes no chunk. */
  lemma BlankParagraphIgnored(a: seq<string>, para: string, b: seq<string>, maxChars: int, table: Table)
    requires Blank(para)
    ensures Chunks(a + [para] + b, maxChars, table) == Chunks(a + b, maxChars, table)
  {
    KeptAppend(a + [para], b);
    KeptAppend(a, [para]);
    KeptAppend(a, b);
    assert [para][1..] == [];
    assert Kept([para]) == [];
    assert Kept(a + [para] + b) == Kept(a + b);
    assert Prepare(a + [para] + b, table) == Prepare(a + b, table);
  }

  /** A single non-blank paragraph is exactly one chunk, whatever the budget. */
  lemma SingleParagraphOneChunk(para: string, maxChars: int, table: Table)
    requires !Blank(para)
    ensures Chunks([para], maxChars, table) == [Expand(Strip(para), table) + PauseCue]
  {
    var item := Item(para, table);
    assert [para][1..] == [];
    assert Kept([para]) == [para];
    assert Prepare([para], table) == [item];
    assert [item][1..] == [] && [] + [item] == [item];
    assert Pack([item], maxChars, []) == [[item]];
    assert Render([[item]]) == [Join(" ", [item])];
  }

  /** Text in which no key of the table occurs passes through unchanged. */
  lemma {:induction false} ExpandAbsentKeys(p: string, table: Table)
    requires forall e :: e in table ==> e.0 != [] && !Occurs(e.0, p)
    ensures Expand(p, table) == p
    decreases |table|
  {
    if table != [] {
      var n := |table|;
      ExpandAbsentKeys(p, table[..n - 1]);
      assert table[n - 1] in table;
      ReplaceAbsent(p, table[n - 1].0, table[n - 1].1);
    }
  }

  /** A character that neither the paragraph nor any replacement holds is
      not in the expanded paragraph. */
  lemma {:induction false} ExpandKeepsOut(p: string, table: Table, c: char)
    requires c !in p && forall e :: e in table ==> c !in e.1
    ensures c !in Expand(p, table)
    decreases |table|
  {
    if table != [] {
      var init := table[..|table| - 1];
      assert forall e :: e in init ==> e in table;
      ExpandKeepsOut(p, init, c);
      ReplaceKeepsOut(Expand(p, init), table[|table| - 1].0, table[|table| - 1].1, c);
    }
  }

  /** The entries apply one after the other, in table order. */
  lemma {:induction false} ExpandSequential(p: string, a: Table, b: Table)
    ensures Expand(p, a + b) == Expand(Expand(p, a), b)
    decreases |b|
  {
    if b == [] {
      assert a + b == a;
    } else {
      var n := |b|;
      ExpandSequential(p, a, b[..n - 1]);
      assert (a + b)[..|a + b| - 1] == a + b[..n - 1];
      assert (a + b)[|a + b| - 1] == b[n - 1];
    }
  }

  // ---------------------------------------------------------------------
  // Properties of the packing
  // ---------------------------------------------------------------------

  lemma RenderCons(g: seq<string>, rest: seq<seq<string>>)
    ensures Render([g] + rest) == [Join(" ", g)] + Render(rest)
  {
  }

  /** One item of the packing, as the loop of `SplitIntoChunks` performs it. */
  lemma PackStep(p: string, rest: seq<string>, maxChars: int, chunk: seq<string>)
    ensures SumLen(chunk) + |p| > maxChars && chunk != [] ==>
      Render(Pack([p] + rest, maxChars, chunk)) == [Join(" ", chunk)] + Render(Pack(rest, maxChars, [p]))
    ensures !(SumLen(chunk) + |p| > maxChars && chunk != []) ==>
      Pack([p] + rest, maxChars, chunk) == Pack(rest, maxChars, chunk + [p])
  {
    assert ([p] + rest)[1..] == rest;
    if SumLen(chunk) + |p| > maxChars && chunk != [] {
      RenderCons(chunk, Pack(rest, maxChars, [p]));
    }
  }

  lemma {:induction false} FlattenAppend(a: seq<seq<string>>, b: seq<seq<string>>)
    ensures Flatten(a + b) == Flatten(a) + Flatten(b)
  {
    if a == [] {
      assert a + b == b;
    } else {
      calc {
        Flatten(a + b);
        { assert (a + b)[1..] == a[1..] + b; }
        a[0] + Flatten(a[1..] + b);
        { FlattenAppend(a[1..], b); }
        a[0] + (Flatten(a[1..]) + Flatten(b));
        { AppendAssoc(a[0], Flatten(a[1..]), Flatten(b)); }
        Flatten(a) + Flatten(b);
      }
    }
  }

  /** Packing loses, duplicates and reorders nothing. */
  lemma {:induction false} PackFlatten(items: seq<string>, maxChars: int, chunk: seq<string>)
    ensures Flatten(Pack(items, maxChars, chunk)) == chunk + items
    decreases |items|
  {
    if items == [] {
      if chunk != [] {
        assert Flatten([chunk]) == chunk + Flatten([]);
      }
    } else {
      var p := items[0];
      assert items == [p] + items[1..];
      if SumLen(chunk) + |p| > maxChars && chunk != [] {
        var tail := Pack(items[1..], maxChars, [p]);
        PackFlatten(items[1..], maxChars, [p]);
        FlattenAppend([chunk], tail);
        assert Flatten([chunk]) == chunk + Flatten([]);
      } else {
        PackFlatten(items[1..], maxChars, chunk + [p]);
      }
    }
  }

  /** Every group is non-empty, and the open group starts the first one. */
  lemma {:induction false} PackNonEmpty(items: seq<string>, maxChars: int, chunk: seq<string>)
    ensures NonEmptyGroups(Pack(items, maxChars, chunk))
    ensures chunk != [] ==> var gs := Pack(items, maxChars, chunk); gs != [] && gs[0] != [] && gs[0][0] == chunk[0]
    decreases |items|
  {
    if items != [] {
      var p := items[0];
      if SumLen(chunk) + |p| > maxChars && chunk != [] {
        PackNonEmpty(items[1..], maxChars, [p]);
      } else {
        PackNonEmpty(items[1..], maxChars, chunk + [p]);
      }
    }
  }

  /** Starting from an open group that fits, every group of two or more
      items fits the budget. */
  lemma {:induction false} PackWithinBudget(items: seq<string>, maxChars: int, chunk: seq<string>)
    requires |chunk| >= 2 ==> SumLen(chunk) <= maxChars
    ensures WithinBudget(Pack(items, maxChars, chunk), maxChars)
    decreases |items|
  {
    if items != [] {
      var p := items[0];
      if SumLen(chunk) + |p| > maxChars && chunk != [] {
        PackWithinBudget(items[1..], maxChars, [p]);
      } else {
        SumLenAppend(chunk, [p]);
        PackWithinBudget(items[1..], maxChars, chunk + [p]);
      }
    }
  }

  /** A group is closed only when the next item does not fit in it. */
  lemma {:induction false} PackGreedy(items: seq<string>, maxChars: int, chunk: seq<string>)
    ensures Greedy(Pack(items, maxChars, chunk), maxChars)
    decreases |items|
  {
    if items != [] {
      var p := items[0];
      if SumLen(chunk) + |p| > maxChars && chunk != [] {
        var tail := Pack(items[1..], maxChars, [p]);
        PackGreedy(items[1..], maxChars, [p]);
        PackNonEmpty(items[1..], maxChars, [p]);
        var gs := [chunk] + tail;
        assert gs[1..] == tail;
        forall k, l | 0 <= k < l < |gs| && l == k + 1
          ensures gs[l] != [] && SumLen(gs[k]) + |gs[l][0]| > maxChars
        {
          if k > 0 {
            assert gs[k] == tail[k - 1] && gs[l] == tail[l - 1];
          }
        }
      } else {
        PackGreedy(items[1..], maxChars, chunk + [p]);
      }
    }
  }

  /** Joining the rendered groups equals joining all their items. */
  lemma {:induction false} JoinRender(groups: seq<seq<string>>)
    requires NonEmptyGroups(groups)
    ensures Join(" ", Render(groups)) == Join(" ", Flatten(groups))
  {
    if |groups| == 1 {
      assert Render(groups) == [Join(" ", groups[0])];
      assert groups[1..] == [];
      assert Flatten(groups) == groups[0];
    } else if |groups| > 1 {
      var rest := groups[1..];
      JoinRender(rest);
      assert Render(groups) == [Join(" ", groups[0])] + Render(rest);
      assert Flatten(rest) != [] by {
        assert |Flatten(rest)| >= |rest[0]|;
      }
      JoinAppend(" ", groups[0], Flatten(rest));
    }
  }

  // ---------------------------------------------------------------------
  // Guarantees of the chunk stream
  // ---------------------------------------------------------------------

  /** Every chunk holds at least one kept paragraph, the paragraphs appear in
      their original order and nothing is lost: joining the chunks with single
      spaces equals joining the kept paragraphs with single spaces. */
  lemma ChunksPreserveContent(paras: seq<string>, maxChars: int, table: Table)
    ensures var gs := Groups(paras, maxChars, table);
      && NonEmptyGroups(gs)
      && Flatten(gs) == Prepare(paras, table)
      && Join(" ", Chunks(paras, maxChars, table)) == Join(" ", Prepare(paras, table))
  {
    var items := Prepare(paras, table);
    PackFlatten(items, maxChars, []);
    PackNonEmpty(items, maxChars, []);
    assert [] + items == items;
    JoinRender(Groups(paras, maxChars, table));
  }

  /** A chunk of two or more paragraphs fits the budget; its rendered text is
      one character longer per joining space than the budget counts. */
  lemma ChunksWithinBudget(paras: seq<string>, maxChars: int, table: Table, k: nat)
    requires k < |Groups(paras, maxChars, table)|
    ensures var g := Groups(paras, maxChars, table)[k];
      && g != []
      && (|g| >= 2 ==> SumLen(g) <= maxChars)
      && |Chunks(paras, maxChars, table)[k]| == SumLen(g) + |g| - 1
  {
    var gs := Groups(paras, maxChars, table);
    PackNonEmpty(Prepare(paras, table), maxChars, []);
    PackWithinBudget(Prepare(paras, table), maxChars, []);
    JoinLength(" ", gs[k]);
  }

  /** A paragraph longer than the budget is a chunk on its own, never split. */
  lemma OversizedParagraphAlone(paras: seq<string>, maxChars: int, table: Table, k: nat, j: nat)
    requires k < |Groups(paras, maxChars, table)|
    requires j < |Groups(paras, maxChars, table)[k]|
    requires |Groups(paras, maxChars, table)[k][j]| > maxChars
    ensures Groups(paras, maxChars, table)[k] == [Groups(paras, maxChars, table)[k][j]]
    ensures Chunks(paras, maxChars, table)[k] == Groups(paras, maxChars, table)[k][j]
  {
    var g := Groups(paras, maxChars, table)[k];
    PackWithinBudget(Prepare(paras, table), maxChars, []);
    SumLenBoundsMembers(g, j);
  }

  /** Greedy maximality: each chunk is closed only because the first paragraph
      of the next chunk would have pushed it over the budget. */
  lemma ChunksGreedy(paras: seq<string>, maxChars: int, table: Table, k: nat)
    requires k + 1 < |Groups(paras, maxChars, table)|
    ensures var gs := Groups(paras, maxChars, table);
      gs[k + 1] != [] && SumLen(gs[k]) + |gs[k + 1][0]| > maxChars
  {
    PackGreedy(Prepare(paras, table), maxChars, []);
  }
}

=== FILE: cues.dfy ===
/** The SSML-like cue vocabulary that the chunker writes into chunk text and
    the synthesis stage reads back: a pause `<break time="Nms"/>` and an
    emphasis span `<emphasis level="W">X</emphasis>`. */
module Cues {

  const BreakOpen: string := "<break time=\""
  const BreakClose: string := "ms\"/>"
  const EmphOpen: string := "<emphasis level=\""
  const EmphMid: string := "\">"
  const EmphClose: string := "</emphasis>"

  /** A pause whose duration in milliseconds is written as `ms`. */
  function BreakCue(ms: string): string {
    BreakOpen + ms + BreakClose
  }

  function EmphasisTag(level: string, text: string): string {
    EmphOpen + level + EmphMid + text + EmphClose
  }

  /** Appended to every paragraph the chunker keeps. */
  const PauseCue: string := " " + BreakCue("250")

  /** What a heading line becomes: a long pause, the heading text in strong
      emphasis, a shorter pause. */
  function HeadingCue(title: string): string {
    BreakCue("1200") + EmphasisTag("strong", title) + BreakCue("800")
  }

  /** The pause cue is the 22-character text ` <break time="250ms"/>`. */
  lemma PauseCueText()
    ensures PauseCue == " <break time=\"250ms\"/>"
    ensures |PauseCue| == 22
  {
  }

  /** The heading cue spelled out. */
  lemma HeadingCueText(title: string)
    ensures HeadingCue(title) ==
      "<break time=\"1200ms\"/>" + "<emphasis level=\"strong\">" + title
      + "</emphasis>" + "<break time=\"800ms\"/>"
  {
  }

  /** No cue contains a newline except through the heading text. */
  lemma HeadingCueNewlines(title: string)
    ensures '\n' in HeadingCue(title) <==> '\n' in title
  {
    assert '\n' !in BreakOpen && '\n' !in BreakClose;
    assert '\n' !in EmphOpen && '\n' !in EmphMid && '\n' !in EmphClose;
  }
}

=== FILE: manifest.dfy ===
/** The chunk manifest of the clean-and-chunk stage: chunk `i` is written to
    `chunk_{i:04d}.txt` in the output directory and listed as entry `i`. */
module Manifest {
  import opened Numerals

  /** One manifest record: `{"idx": i, "text_file": path}`. */
  datatype Entry = Entry(idx: nat, textFile: string)

  /** The path of chunk `i` under a directory given without a trailing slash. */
  function ChunkPath(outDir: string, i: nat): string {
    outDir + "/chunk_" + Format04(i) + ".txt"
  }

  /** The manifest loop: every chunk is written to its own file (`files` maps
      paths to contents) and listed, in emission order. */
  method BuildManifest(chunks: seq<string>, outDir: string, files: map<string, string>)
    returns (manifest: seq<Entry>, written: map<string, string>)
    ensures |manifest| == |chunks|
    ensures forall i :: 0 <= i < |chunks| ==> manifest[i] == Entry(i, ChunkPath(outDir, i))
    ensures forall i :: 0 <= i < |chunks| ==>
      ChunkPath(outDir, i) in written && written[ChunkPath(outDir, i)] == chunks[i]
    ensures forall path :: path in written <==>
      path in files || exists i :: 0 <= i < |chunks| && path == ChunkPath(outDir, i)
    ensures forall path :: path in files && (forall i :: 0 <= i < |chunks| ==> path != ChunkPath(outDir, i)) ==>
      written[path] == files[path]
  {
    manifest := [];
    written := files;
    for i := 0 to |chunks|
      invariant |manifest| == i
      invariant forall k :: 0 <= k < i ==> manifest[k] == Entry(k, ChunkPath(outDir, k))
      invariant forall k :: 0 <= k < i ==>
        ChunkPath(outDir, k) in written && written[ChunkPath(outDir, k)] == chunks[k]
      invariant forall path :: path in written <==>
        path in files || exists k :: 0 <= k < i && path == ChunkPath(outDir, k)
      invariant forall path :: path in files && (forall k :: 0 <= k < i ==> path != ChunkPath(outDir, k)) ==>
        written[path] == files[path]
    {
      var fp := ChunkPath(outDir, i);
      forall k | 0 <= k < i
        ensures ChunkPath(outDir, k) != fp
      {
        if ChunkPath(outDir, k) == fp {
          ChunkPathInjective(outDir, k, i);
        }
      }
      written := written[fp := chunks[i]];
      manifest := manifest + [Entry(i, fp)];
    }
  }

  /** Distinct chunks never share a file. */
  lemma ChunkPathInjective(outDir: string, i: nat, j: nat)
    requires ChunkPath(outDir, i) == ChunkPath(outDir, j)
    ensures i == j
  {
    var pre := outDir + "/chunk_";
    var a, b := ChunkPath(outDir, i), ChunkPath(outDir, j);
    assert |Format04(i)| == |Format04(j)|;
    assert Format04(i) == a[|pre|..|pre| + |Format04(i)|];
    assert Format04(j) == b[|pre|..|pre| + |Format04(j)|];
    Format04Injective(i, j);
  }

  /** Below 10000 chunks, sorting the file names by string order lists the
      chunks in index order. */
  lemma ChunkPathsSortInIndexOrder(outDir: string, i: nat, j: nat)
    requires i < j < 10000
    ensures LexLess(ChunkPath(outDir, i), ChunkPath(outDir, j))
  {
    Format04Order(i, j);
    Format04Width(i);
    Format04Width(j);
    LexLessSuffix(Format04(i), Format04(j), ".txt", ".txt");
    LexLessPrefix(outDir + "/chunk_", Format04(i) + ".txt", Format04(j) + ".txt");
    assert ChunkPath(outDir, i) == (outDir + "/chunk_") + (Format04(i) + ".txt");
    assert ChunkPath(outDir, j) == (outDir + "/chunk_") + (Format04(j) + ".txt");
  }

  /** The 10001st chunk file sorts before the 10000th. */
  lemma ChunkPathOrderBreaksAt10000(outDir: string)
    ensures LexLess(ChunkPath(outDir, 10000), ChunkPath(outDir, 9999))
  {
    Format04OrderBreaksAt10000();
    var a, b := Format04(10000) + ".txt", Format04(9999) + ".txt";
    assert a[0] == '1' && b[0] == '9';
    LexLessPrefix(outDir + "/chunk_", a, b);
    assert ChunkPath(outDir, 10000) == (outDir + "/chunk_") + a;
    assert ChunkPath(outDir, 9999) == (outDir + "/chunk_") + b;
  }
}

=== FILE: markup.dfy ===
/** The cue decoder of the synthesis stage: the `BREAK` pattern
    `<break time="(\d+)ms"/>` and the `EMPH` pattern
    `<emphasis level="(\w+)">(.*?)</emphasis>`, each applied as a
    left-to-right, non-overlapping scan. */
module Markup {
  import opened Wrappers
  import opened Strings
  import opened Numerals
  import opened Cues

  /** The longest prefix of `s` made of digits (what a greedy `\d+` takes). */
  function DigitRun(s: string): (d: string)
    ensures |d| <= |s| && d == s[..|d|] && AllDigits(d)
    ensures |d| == |s| || !IsDigit(s[|d|])
  {
    if s != [] && IsDigit(s[0]) then [s[0]] + DigitRun(s[1..]) else []
  }

  /** The longest prefix of `s` made of word characters (a greedy `\w+`). */
  function WordRun(s: string): (w: string)
    ensures |w| <= |s| && w == s[..|w|]
    ensures forall k :: 0 <= k < |w| ==> IsWordChar(w[k])
    ensures |w| == |s| || !IsWordChar(s[|w|])
  {
    if s != [] && IsWordChar(s[0]) then [s[0]] + WordRun(s[1..]) else []
  }

  /** `p` is a prefix of `s`. */
  predicate StartsWith(s: string, p: string) {
    |p| <= |s| && forall i :: 0 <= i < |p| ==> s[i] == p[i]
  }

  lemma StartsWithAppend(p: string, t: string)
    ensures StartsWith(p + t, p)
  {
  }

  /** A `BREAK` match at the start of `s`: its digits and its length. */
  function MatchBreak(s: string): (m: Option<(string, nat)>)
    ensures m.Some? ==> m.value.0 != [] && AllDigits(m.value.0) && 0 < m.value.1 <= |s|
  {
    if StartsWith(s, BreakOpen) then
      var d := DigitRun(s[|BreakOpen|..]);
      var n := |BreakOpen| + |d|;
      if d != [] && StartsWith(s[n..], BreakClose) then Some((d, n + |BreakClose|))
      else None
    else None
  }

  /** A `BREAK` match covers exactly the break cue of the digits it captures. */
  lemma MatchBreakSound(s: string)
    requires MatchBreak(s).Some?
    ensures s[..MatchBreak(s).value.1] == BreakCue(MatchBreak(s).value.0)
  {
    var d := DigitRun(s[|BreakOpen|..]);
    var n := |BreakOpen| + |d|;
    assert s[..|BreakOpen|] == BreakOpen;
    assert s[|BreakOpen|..n] == d;
    assert s[n..n + |BreakClose|] == BreakClose;
    assert s[..n + |BreakClose|] == s[..|BreakOpen|] + s[|BreakOpen|..n] + s[n..n + |BreakClose|];
  }

  /** `[int(ms) for ms in BREAK.findall(s)]`. */
  function BreakValues(s: string): seq<nat>
    decreases |s|
  {
    if s == [] then []
    else match MatchBreak(s)
      case Some((d, n)) => [Value(d)] + BreakValues(s[n..])
      case None => BreakValues(s[1..])
  }

  /** `BREAK.sub(" ", s)`: each match becomes one space. */
  function SubBreaks(s: string): string
    decreases |s|
  {
    if s == [] then []
    else match MatchBreak(s)
      case Some((_, n)) => " " + SubBreaks(s[n..])
      case None => [s[0]] + SubBreaks(s[1..])
  }

  /** Where a lazy `(.*?)</emphasis>` stops: the first closing tag, provided
      no newline comes before it. */
  function FindClose(s: string): (k: Option<nat>)
    ensures k.Some? ==> k.value + |EmphClose| <= |s|
    decreases |s|
  {
    if StartsWith(s, EmphClose) then Some(0)
    else if s == [] || s[0] == '\n' then None
    else match FindClose(s[1..])
      case Some(k) => Some(k + 1)
      case None => None
  }

  /** The index `FindClose` returns starts a closing tag, no newline comes
      before it, and no earlier index starts one: the match is lazy. */
  lemma {:induction false} FindCloseSound(s: string)
    requires FindClose(s).Some?
    ensures var k := FindClose(s).value;
      && StartsWith(s[k..], EmphClose)
      && '\n' !in s[..k]
      && forall j :: 0 <= j < k ==> !StartsWith(s[j..], EmphClose)
    decreases |s|
  {
    if !StartsWith(s, EmphClose) {
      FindCloseSound(s[1..]);
      var k := FindClose(s[1..]).value;
      assert s[k + 1..] == s[1..][k..];
      assert s[..k + 1] == [s[0]] + s[1..][..k];
      forall j | 1 <= j <= k ensures !StartsWith(s[j..], EmphClose) {
        assert s[j..] == s[1..][j - 1..];
      }
    }
  }

  datatype EmphMatch = EmphMatch(level: string, text: string, len: nat)

  /** An `EMPH` match at the start of `s`. */
  function MatchEmph(s: string): (m: Option<EmphMatch>)
    ensures m.Some? ==> 0 < m.value.len <= |s|
  {
    if StartsWith(s, EmphOpen) then MatchAfterOpen(s[|EmphOpen|..]) else None
  }

  /** An `EMPH` match covers exactly the emphasis tag of the level and the
      text it captures, and those are what the pattern can capture. */
  lemma MatchEmphSound(s: string)
    requires MatchEmph(s).Some?
    ensures var m := MatchEmph(s).value;
      && s[..m.len] == EmphasisTag(m.level, m.text)
      && WellFormedTag(m.level, m.text)
  {
    var rest := s[|EmphOpen|..];
    MatchAfterOpenSound(rest);
    var m := MatchAfterOpen(rest).value;
    var tail := m.level + EmphMid + m.text + EmphClose;
    assert s[..m.len] == EmphOpen + tail by {
      assert s[..m.len] == s[..|EmphOpen|] + rest[..m.len - |EmphOpen|];
      assert s[..|EmphOpen|] == EmphOpen;
    }
    RegroupTag(EmphOpen, m.level, EmphMid, m.text, EmphClose);
  }

  lemma RegroupTag(p: string, q: string, r: string, u: string, v: string)
    ensures p + (q + r + u + v) == p + q + r + u + v
  {
  }

  /** What the `EMPH` pattern can capture: a non-empty word-character level
      and a text on one line. */
  predicate WellFormedTag(level: string, text: string) {
    && level != []
    && (forall k :: 0 <= k < |level| ==> IsWordChar(level[k]))
    && '\n' !in text
  }

  /** The rest of an `EMPH` match after `<emphasis level="`: a non-empty
      word-character level and `">`. */
  function MatchAfterOpen(rest: string): (m: Option<EmphMatch>)
    ensures m.Some? ==> 0 < m.value.len <= |EmphOpen| + |rest|
  {
    var w := WordRun(rest);
    if w != [] && StartsWith(rest[|w|..], EmphMid) then
      MatchAfterLevel(w, rest[|w| + |EmphMid|..])
    else None
  }

  lemma MatchAfterOpenSound(rest: string)
    requires MatchAfterOpen(rest).Some?
    ensures var m := MatchAfterOpen(rest).value;
      && WellFormedTag(m.level, m.text)
      && m.len == |EmphOpen| + |m.level| + |EmphMid| + |m.text| + |EmphClose|
      && rest[..m.len - |EmphOpen|] == m.level + EmphMid + m.text + EmphClose
  {
    var w := WordRun(rest);
    var body := rest[|w| + |EmphMid|..];
    MatchAfterLevelSound(w, body);
    var m := MatchAfterLevel(w, body).value;
    var n := m.len - |EmphOpen|;
    assert rest[..n] == rest[..|w|] + rest[|w|..|w| + |EmphMid|] + body[..n - |w| - |EmphMid|];
    assert rest[|w|..|w| + |EmphMid|] == EmphMid;
  }

  /** The rest of an `EMPH` match after the level: the shortest text up to
      the closing tag. */
  function MatchAfterLevel(level: string, body: string): (m: Option<EmphMatch>)
    ensures m.Some? ==> 0 < m.value.len <= |EmphOpen| + |level| + |EmphMid| + |body|
  {
    match FindClose(body)
    case Some(k) => Some(EmphMatch(level, body[..k], |EmphOpen| + |level| + |EmphMid| + k + |EmphClose|))
    case None => None
  }

  lemma MatchAfterLevelSound(level: string, body: string)
    requires MatchAfterLevel(level, body).Some?
    ensures var m := MatchAfterLevel(level, body).value;
      && m.level == level
      && '\n' !in m.text
      && m.len == |EmphOpen| + |level| + |EmphMid| + |m.text| + |EmphClose|
      && body[..|m.text| + |EmphClose|] == m.text + EmphClose
  {
    FindCloseSound(body);
    var k := FindClose(body).value;
    assert body[k..k + |EmphClose|] == EmphClose;
    assert body[..k + |EmphClose|] == body[..k] + body[k..k + |EmphClose|];
  }

  /** What an emphasis tag becomes: its text, uppercased when the level is
      `strong`. */
  function EmphReplacement(level: string, text: string): string {
    if level == "strong" then Upper(text) else text
  }

  /** `EMPH.sub(...)`: each tag replaced by its (possibly uppercased) text. */
  function SubEmph(s: string): string
    decreases |s|
  {
    if s == [] then []
    else match MatchEmph(s)
      case Some(m) => EmphReplacement(m.level, m.text) + SubEmph(s[m.len..])
      case None => [s[0]] + SubEmph(s[1..])
  }

  /** What the placeholder synthesiser extracts from a chunk: the pause
      durations and the plain text it would speak. */
  datatype Decoded = Decoded(pauses: seq<nat>, plain: string)

  /** Breaks are read and removed first, then emphasis tags are resolved. */
  function Decode(text: string): Decoded {
    Decoded(BreakValues(text), SubEmph(SubBreaks(text)))
  }

  // ---------------------------------------------------------------------
  // Text without cues
  // ---------------------------------------------------------------------

  /** No cue starts at a character other than `<`. */
  lemma NoCueAt(s: string)
    requires s != [] && s[0] != '<'
    ensures MatchBreak(s).None? && MatchEmph(s).None?
  {
    assert BreakOpen[0] == '<' && EmphOpen[0] == '<';
  }

  /** Text without `<` holds no break cue: it passes through unchanged and
      contributes no pause. */
  lemma {:induction false} PlainPrefixBreaks(a: string, t: string)
    requires '<' !in a
    ensures BreakValues(a + t) == BreakValues(t)
    ensures SubBreaks(a + t) == a + SubBreaks(t)
    decreases |a|
  {
    if a == [] {
      assert a + t == t;
    } else {
      var s := a + t;
      assert s[1..] == a[1..] + t;
      NoCueAt(s);
      assert BreakValues(s) == BreakValues(a[1..] + t);
      PlainPrefixBreaks(a[1..], t);
      calc {
        SubBreaks(s);
        [a[0]] + SubBreaks(a[1..] + t);
        [a[0]] + (a[1..] + SubBreaks(t));
        { AppendAssoc([a[0]], a[1..], SubBreaks(t)); }
        ([a[0]] + a[1..]) + SubBreaks(t);
        { assert a == [a[0]] + a[1..]; }
        a + SubBreaks(t);
      }
    }
  }

  /** Text without `<` holds no emphasis tag either. */
  lemma {:induction false} PlainPrefixEmph(a: string, t: string)
    requires '<' !in a
    ensures SubEmph(a + t) == a + SubEmph(t)
    decreases |a|
  {
    if a == [] {
      assert a + t == t;
    } else {
      var s := a + t;
      assert s[1..] == a[1..] + t;
      NoCueAt(s);
      PlainPrefixEmph(a[1..], t);
      calc {
        SubEmph(s);
        [a[0]] + SubEmph(a[1..] + t);
        [a[0]] + (a[1..] + SubEmph(t));
        { AppendAssoc([a[0]], a[1..], SubEmph(t)); }
        ([a[0]] + a[1..]) + SubEmph(t);
        { assert a == [a[0]] + a[1..]; }
        a + SubEmph(t);
      }
    }
  }

  /** Text without `<` decodes to itself, with no pauses. */
  lemma PlainText(a: string)
    requires '<' !in a
    ensures Decode(a) == Decoded([], a)
  {
    PlainPrefixBreaks(a, []);
    PlainPrefixEmph(a, []);
    assert a + [] == a;
  }

  /** One step of the break scan over a character that starts no cue. */
  lemma BreakStepNone(s: string)
    requires s != [] && MatchBreak(s).None?
    ensures BreakValues(s) == BreakValues(s[1..])
    ensures SubBreaks(s) == [s[0]] + SubBreaks(s[1..])
  {
  }

  /** A `<` that is not followed by `b` does not start a break cue. */
  lemma AngleNotBreak(a: string, t: string)
    requires a != [] && a[0] != 'b' && '<' !in a
    ensures BreakValues("<" + a + t) == BreakValues(t)
    ensures SubBreaks("<" + a + t) == "<" + a + SubBreaks(t)
  {
    var s := "<" + a + t;
    assert MatchBreak(s).None? by {
      assert s[1] == a[0] && BreakOpen[1] == 'b';
    }
    BreakStepNone(s);
    assert [s[0]] == "<" && s[1..] == a + t;
    PlainPrefixBreaks(a, t);
    AppendAssoc("<", a, t);
    AppendAssoc("<", a, SubBreaks(t));
  }

  /** Where `<` occurs in the pieces of an emphasis tag. */
  lemma TagPieces()
    ensures EmphOpen[0] == '<' && EmphOpen[1] != 'b' && '<' !in EmphOpen[1..]
    ensures '<' !in EmphMid
    ensures EmphClose[0] == '<' && EmphClose[1] != 'b' && '<' !in EmphClose[1..]
  {
    assert EmphOpen[1..] == "emphasis level=\"";
    assert EmphClose[1..] == "/emphasis>";
  }

  /** An emphasis tag as its two `<` characters and what follows each. */
  lemma TagSplit(level: string, x: string)
    ensures EmphasisTag(level, x) == "<" + (EmphOpen[1..] + level + EmphMid + x) + "<" + EmphClose[1..]
  {
    assert EmphOpen == "<" + EmphOpen[1..];
    assert EmphClose == "<" + EmphClose[1..];
  }

  lemma Regroup(a: string, b: string, z: string)
    ensures "<" + a + "<" + b + z == "<" + a + ("<" + b + z)
  {
  }

  /** An emphasis tag whose level and text hold no `<` holds no break cue. */
  lemma EmphasisTagHasNoBreak(level: string, x: string, t: string)
    requires '<' !in level && '<' !in x
    ensures BreakValues(EmphasisTag(level, x) + t) == BreakValues(t)
    ensures SubBreaks(EmphasisTag(level, x) + t) == EmphasisTag(level, x) + SubBreaks(t)
  {
    TagPieces();
    TagSplit(level, x);
    var a := EmphOpen[1..] + level + EmphMid + x;
    var b := EmphClose[1..];
    Regroup(a, b, t);
    Regroup(a, b, SubBreaks(t));
    AngleNotBreak(b, t);
    AngleNotBreak(a, "<" + b + t);
  }

  // ---------------------------------------------------------------------
  // Break cues
  // ---------------------------------------------------------------------

  lemma {:induction false} DigitRunStops(d: string, t: string)
    requires AllDigits(d) && t != [] && !IsDigit(t[0])
    ensures DigitRun(d + t) == d
    decreases |d|
  {
    if d == [] {
      assert d + t == t;
    } else {
      var s := d + t;
      assert s[0] == d[0];
      calc {
        DigitRun(s);
        [s[0]] + DigitRun(s[1..]);
        == { assert s[1..] == d[1..] + t; DigitRunStops(d[1..], t); }
        [d[0]] + d[1..];
        == { assert d == [d[0]] + d[1..]; }
        d;
      }
    }
  }

  /** A break cue with a non-empty digit string matches, in full. */
  lemma MatchBreakCue(d: string, t: string)
    requires d != [] && AllDigits(d)
    ensures MatchBreak(BreakCue(d) + t) == Some((d, |BreakCue(d)|))
  {
    var s := BreakCue(d) + t;
    assert s == BreakOpen + (d + (BreakClose + t));
    assert s[..|BreakOpen|] == BreakOpen;
    assert s[|BreakOpen|..] == d + (BreakClose + t);
    DigitRunStops(d, BreakClose + t);
    var n := |BreakOpen| + |d|;
    assert s[n..] == BreakClose + t;
    assert s[n..][..|BreakClose|] == BreakClose;
  }

  /** A break cue in front of any text is read as one pause and becomes one space. */
  lemma BreakCueDecodes(d: string, t: string)
    requires d != [] && AllDigits(d)
    ensures BreakValues(BreakCue(d) + t) == [Value(d)] + BreakValues(t)
    ensures SubBreaks(BreakCue(d) + t) == " " + SubBreaks(t)
  {
    MatchBreakCue(d, t);
    var s := BreakCue(d) + t;
    assert s[|BreakCue(d)|..] == t;
  }

  /** `int` of the digits of `str(n)` gives back `n`: every duration the
      chunker writes is read back exactly. */
  lemma BreakRoundTrip(n: nat, t: string)
    ensures BreakValues(BreakCue(Decimal(n)) + t) == [n] + BreakValues(t)
    ensures SubBreaks(BreakCue(Decimal(n)) + t) == " " + SubBreaks(t)
  {
    BreakCueDecodes(Decimal(n), t);
    ValueOfDecimal(n);
  }

  // ---------------------------------------------------------------------
  // Emphasis tags
  // ---------------------------------------------------------------------

  lemma {:induction false} WordRunStops(w: string, t: string)
    requires forall k :: 0 <= k < |w| ==> IsWordChar(w[k])
    requires t != [] && !IsWordChar(t[0])
    ensures WordRun(w + t) == w
    decreases |w|
  {
    if w == [] {
      assert w + t == t;
    } else {
      var s := w + t;
      assert s[0] == w[0];
      calc {
        WordRun(s);
        [s[0]] + WordRun(s[1..]);
        == { assert s[1..] == w[1..] + t; WordRunStops(w[1..], t); }
        [w[0]] + w[1..];
        == { assert w == [w[0]] + w[1..]; }
        w;
      }
    }
  }

  /** In text without `<`, the first closing tag is the one that follows it. */
  lemma {:induction false} FindCloseAfter(x: string, t: string)
    requires '<' !in x && '\n' !in x
    ensures FindClose(x + EmphClose + t) == Some(|x|)
    decreases |x|
  {
    var s := x + EmphClose + t;
    if x == [] {
      assert s == EmphClose + t;
      assert s[..|EmphClose|] == EmphClose;
    } else {
      assert s[0] == x[0] && EmphClose[0] == '<';
      assert !StartsWith(s, EmphClose) && s[0] != '\n';
      assert s[1..] == x[1..] + EmphClose + t;
      FindCloseAfter(x[1..], t);
    }
  }

  lemma Regroup5(p: string, q: string, r: string, u: string, v: string, w: string)
    ensures p + q + r + u + v + w == p + (q + (r + (u + v + w)))
  {
  }

  /** After an opening tag with a word-character level, the match is decided
      by where the closing tag falls in the body. */
  lemma MatchEmphPieces(level: string, body: string)
    requires level != [] && forall k :: 0 <= k < |level| ==> IsWordChar(level[k])
    ensures MatchEmph(EmphOpen + (level + (EmphMid + body))) == MatchAfterLevel(level, body)
  {
    var rest := level + (EmphMid + body);
    var s := EmphOpen + rest;
    StartsWithAppend(EmphOpen, rest);
    assert s[|EmphOpen|..] == rest;
    assert EmphMid[0] == '"';
    WordRunStops(level, EmphMid + body);
    assert rest[|level|..] == EmphMid + body;
    StartsWithAppend(EmphMid, body);
    assert rest[|level| + |EmphMid|..] == body;
  }

  lemma TagAsPieces(level: string, x: string, t: string)
    ensures EmphasisTag(level, x) + t == EmphOpen + (level + (EmphMid + (x + EmphClose + t)))
  {
    Regroup5(EmphOpen, level, EmphMid, x, EmphClose, t);
  }

  lemma TagLength(level: string, x: string)
    ensures |EmphasisTag(level, x)| == |EmphOpen| + |level| + |EmphMid| + |x| + |EmphClose|
  {
  }

  /** A well-formed emphasis tag matches, in full. */
  lemma MatchEmphTag(level: string, x: string, t: string)
    requires level != [] && forall k :: 0 <= k < |level| ==> IsWordChar(level[k])
    requires '<' !in x && '\n' !in x
    ensures MatchEmph(EmphasisTag(level, x) + t) == Some(EmphMatch(level, x, |EmphasisTag(level, x)|))
  {
    var body := x + EmphClose + t;
    calc {
      MatchEmph(EmphasisTag(level, x) + t);
      == { TagAsPieces(level, x, t); }
      MatchEmph(EmphOpen + (level + (EmphMid + body)));
      == { MatchEmphPieces(level, body); }
      MatchAfterLevel(level, body);
      == { MatchAfterLevelTag(level, x, t); TagLength(level, x); }
      Some(EmphMatch(level, x, |EmphasisTag(level, x)|));
    }
  }

  /** After the level, the tag's text and closing tag complete the match. */
  lemma MatchAfterLevelTag(level: string, x: string, t: string)
    requires '<' !in x && '\n' !in x
    ensures MatchAfterLevel(level, x + EmphClose + t)
         == Some(EmphMatch(level, x, |EmphOpen| + |level| + |EmphMid| + |x| + |EmphClose|))
  {
    FindCloseAfter(x, t);
    assert (x + EmphClose + t)[..|x|] == x;
  }

  /** One step of the emphasis scan over a match. */
  lemma EmphStepSome(s: string)
    requires s != [] && MatchEmph(s).Some?
    ensures SubEmph(s) == EmphReplacement(MatchEmph(s).value.level, MatchEmph(s).value.text)
                          + SubEmph(s[MatchEmph(s).value.len..])
  {
  }

  /** An emphasis tag with a word level and newline-free, tag-free text is
      replaced by its text, uppercased exactly when the level is `strong`. */
  lemma EmphasisDecodes(level: string, x: string, t: string)
    requires level != [] && forall k :: 0 <= k < |level| ==> IsWordChar(level[k])
    requires '<' !in x && '\n' !in x
    ensures SubEmph(EmphasisTag(level, x) + t) == EmphReplacement(level, x) + SubEmph(t)
  {
    var s := EmphasisTag(level, x) + t;
    MatchEmphTag(level, x, t);
    EmphStepSome(s);
    assert s[|EmphasisTag(level, x)|..] == t;
  }

  // ---------------------------------------------------------------------
  // The cues the chunker writes
  // ---------------------------------------------------------------------

  /** The durations the chunker writes, as `str` renders them. */
  lemma CueNumerals()
    ensures Decimal(250) == "250" && Decimal(800) == "800" && Decimal(1200) == "1200"
  {
  }

  lemma HeadingCueSplit(title: string)
    ensures HeadingCue(title)
         == BreakCue(Decimal(1200)) + (EmphasisTag("strong", title) + BreakCue(Decimal(800)))
  {
    CueNumerals();
  }

  /** The pauses of a heading cue: 1200 before the tag, 800 after it. */
  lemma HeadingPauses(title: string)
    requires '<' !in title
    ensures BreakValues(HeadingCue(title)) == [1200, 800]
  {
    var tag := EmphasisTag("strong", title);
    var tail := BreakCue(Decimal(800));
    calc {
      BreakValues(HeadingCue(title));
      == { HeadingCueSplit(title); }
      BreakValues(BreakCue(Decimal(1200)) + (tag + tail));
      == { BreakRoundTrip(1200, tag + tail); }
      [1200] + BreakValues(tag + tail);
      == { EmphasisTagHasNoBreak("strong", title, tail); }
      [1200] + BreakValues(tail);
      == { BreakRoundTrip(800, []); assert tail + [] == tail; }
      [1200] + ([800] + BreakValues([]));
      [1200, 800];
    }
  }

  /** Each break of a heading cue becomes one space around the tag. */
  lemma HeadingBreaksRemoved(title: string)
    requires '<' !in title
    ensures SubBreaks(HeadingCue(title)) == " " + (EmphasisTag("strong", title) + " ")
  {
    var tag := EmphasisTag("strong", title);
    var tail := BreakCue(Decimal(800));
    calc {
      SubBreaks(HeadingCue(title));
      == { HeadingCueSplit(title); }
      SubBreaks(BreakCue(Decimal(1200)) + (tag + tail));
      == { BreakRoundTrip(1200, tag + tail); }
      " " + SubBreaks(tag + tail);
      == { EmphasisTagHasNoBreak("strong", title, tail); }
      " " + (tag + SubBreaks(tail));
      == { BreakRoundTrip(800, []); assert tail + [] == tail; }
      " " + (tag + (" " + SubBreaks([])));
      " " + (tag + " ");
    }
  }

  lemma StrongIsWord()
    ensures "strong" != [] && forall k :: 0 <= k < |"strong"| ==> IsWordChar("strong"[k])
  {
  }

  /** A heading cue decodes to the pauses 1200 and 800 and to the heading
      text in upper case between two spaces. */
  lemma HeadingDecodes(title: string)
    requires '<' !in title && '\n' !in title
    ensures Decode(HeadingCue(title)) == Decoded([1200, 800], " " + Upper(title) + " ")
  {
    var h, tag := HeadingCue(title), EmphasisTag("strong", title);
    HeadingPauses(title);
    assert SubEmph(SubBreaks(h)) == " " + Upper(title) + " " by {
      calc {
        SubEmph(SubBreaks(h));
        == { HeadingBreaksRemoved(title); }
        SubEmph(" " + (tag + " "));
        == { PlainPrefixEmph(" ", tag + " "); }
        " " + SubEmph(tag + " ");
        == { StrongIsWord(); EmphasisDecodes("strong", title, " "); }
        " " + (EmphReplacement("strong", title) + SubEmph(" "));
        == { PlainPrefixEmph(" ", []); assert " " + [] == " "; }
        " " + (Upper(title) + " ");
      }
    }
  }

  /** The pause cue after text without `<` is read as one pause of 250 ms
      and becomes one space. */
  lemma PausedBreaks(a: string)
    requires '<' !in a
    ensures BreakValues(a + PauseCue) == [250]
    ensures SubBreaks(a + PauseCue) == a + "  "
  {
    var cue := BreakCue(Decimal(250));
    CueNumerals();
    assert a + PauseCue == (a + " ") + cue;
    PlainPrefixBreaks(a + " ", cue);
    BreakRoundTrip(250, []);
    assert cue + [] == cue;
  }

  /** A paragraph without `<` followed by the pause cue decodes to one pause
      of 250 ms and to the paragraph followed by two spaces. */
  lemma PausedParagraphDecodes(a: string)
    requires '<' !in a
    ensures Decode(a + PauseCue) == Decoded([250], a + "  ")
  {
    var x, y := a + PauseCue, a + "  ";
    PausedBreaks(a);
    PlainPrefixEmph(y, []);
    assert y + [] == y;
    assert SubEmph([]) == [];
    assert Decode(x) == Decoded(BreakValues(x), SubEmph(SubBreaks(x)));
  }
}

=== FILE: normalizer.dfy ===
/** The text normaliser of the clean-and-chunk stage: three substitutions on
    the whole document, a line-by-line heading rewrite, and the split into
    paragraphs on runs of blank lines. */
module TextNormalizer {
  import opened Strings
  import opened Cues

  const Nbsp: char := '\U{A0}'
  const EmDash: char := '\U{2014}'

  /** The characters of `s` that are not whitespace, in order. */
  function NonSpace(s: string): string {
    if s == [] then []
    else if IsSpace(s[0]) then NonSpace(s[1..])
    else [s[0]] + NonSpace(s[1..])
  }

  // ---------------------------------------------------------------------
  // Step 1: non-breaking spaces
  // ---------------------------------------------------------------------

  /** Every non-breaking space becomes an ordinary space; nothing else changes. */
  function ReplaceNbsp(text: string): (r: string)
    ensures |r| == |text|
    ensures forall i :: 0 <= i < |text| ==> r[i] == (if text[i] == Nbsp then ' ' else text[i])
  {
    ReplaceCharByChar(text, Nbsp, ' ');
    ReplaceAll(text, [Nbsp], " ")
  }

  // ---------------------------------------------------------------------
  // Step 2: spaces around em-dashes, `([\w\d])—([\w\d])` -> `\1 — \2`
  // ---------------------------------------------------------------------

  /** A match of the em-dash pattern starts at the front of `s`. */
  predicate DashMatch(s: string) {
    |s| >= 3 && IsWordChar(s[0]) && s[1] == EmDash && IsWordChar(s[2])
  }

  /** Left-to-right, non-overlapping: after a match the scan resumes after
      the second word character, so that character cannot start another match. */
  function SpaceEmDashes(s: string): string
    decreases |s|
  {
    if s == [] then []
    else if DashMatch(s) then [s[0], ' ', EmDash, ' ', s[2]] + SpaceEmDashes(s[3..])
    else [s[0]] + SpaceEmDashes(s[1..])
  }

  // ---------------------------------------------------------------------
  // Step 3: whitespace runs, `\s+` -> ` `
  // ---------------------------------------------------------------------

  /** Text in which the only whitespace is single ordinary spaces. */
  predicate Collapsed(s: string) {
    && (forall i :: 0 <= i < |s| && IsSpace(s[i]) ==> s[i] == ' ')
    && (forall i :: 0 < i < |s| && s[i] == ' ' ==> s[i - 1] != ' ')
  }

  function CollapseWhitespace(s: string): (r: string)
    ensures Collapsed(r)
    ensures r == [] <==> s == []
    ensures r != [] ==> (r[0] == ' ' <==> IsSpace(s[0]))
    decreases |s|
  {
    if s == [] then []
    else if IsSpace(s[0]) then [' '] + CollapseWhitespace(StripLeft(s))
    else [s[0]] + CollapseWhitespace(s[1..])
  }

  // ---------------------------------------------------------------------
  // Step 4: headings, `^#{1,6}\s+` on each line
  // ---------------------------------------------------------------------

  /** Number of `#` characters at the front of `s`. */
  function LeadingHashes(s: string): (n: nat)
    ensures n <= |s|
    ensures forall k :: 0 <= k < n ==> s[k] == '#'
    ensures n < |s| ==> s[n] != '#'
  {
    if s != [] && s[0] == '#' then 1 + LeadingHashes(s[1..]) else 0
  }

  /** `re.match(r'^#{1,6}\s+', line)`: one to six hashes, then whitespace.
      Seven or more hashes never match: after six the pattern needs a
      whitespace character and finds another hash. */
  predicate IsHeading(line: string) {
    var n := LeadingHashes(line);
    1 <= n <= 6 && n < |line| && IsSpace(line[n])
  }

  /** What `re.sub(r'^#{1,6}\s+', '', line)` leaves: the hashes and the whole
      whitespace run after them are gone. */
  function HeadingText(line: string): string
    requires IsHeading(line)
  {
    StripLeft(line[LeadingHashes(line)..])
  }

  function RewriteLine(line: string): string {
    if IsHeading(line) then HeadingCue(HeadingText(line)) else line
  }

  /** The loop over `lines` that builds `processed_lines`. */
  method RewriteHeadings(lines: seq<string>) returns (processed: seq<string>)
    ensures |processed| == |lines|
    ensures forall i :: 0 <= i < |lines| ==>
      processed[i] == (if IsHeading(lines[i]) then HeadingCue(HeadingText(lines[i])) else lines[i])
  {
    processed := [];
    for i := 0 to |lines|
      invariant |processed| == i
      invariant forall k :: 0 <= k < i ==> processed[k] == RewriteLine(lines[k])
    {
      if IsHeading(lines[i]) {
        processed := processed + [HeadingCue(HeadingText(lines[i]))];
      } else {
        processed := processed + [lines[i]];
      }
    }
  }

  // ---------------------------------------------------------------------
  // Step 5: paragraphs, `re.split(r"\n{2,}", text)`
  // ---------------------------------------------------------------------

  /** Number of newlines at the front of `s`. */
  function NewlineRun(s: string): (n: nat)
    ensures n <= |s|
    ensures n < |s| ==> s[n] != '\n'
  {
    if s != [] && s[0] == '\n' then 1 + NewlineRun(s[1..]) else 0
  }

  function SplitParagraphs(s: string): (r: seq<string>)
    ensures |r| >= 1
    decreases |s|
  {
    if s == [] then [""]
    else if NewlineRun(s) >= 2 then [""] + SplitParagraphs(s[NewlineRun(s)..])
    else
      var rest := SplitParagraphs(s[1..]);
      [[s[0]] + rest[0]] + rest[1..]
  }

  // ---------------------------------------------------------------------
  // The whole normaliser
  // ---------------------------------------------------------------------

  /** The three substitutions, in the order the stage applies them. */
  function NormalizeText(text: string): string {
    CollapseWhitespace(SpaceEmDashes(ReplaceNbsp(text)))
  }

  /** The normaliser as the stage runs it. Because the whitespace collapse
      removes every newline before the line-based passes, the document comes
      out as exactly one paragraph, rewritten as a heading only when the
      whole text starts with a heading marker. */
  method NormalizeDocument(text: string) returns (paragraphs: seq<string>)
    ensures |paragraphs| == 1
    ensures IsHeading(NormalizeText(text)) ==>
      paragraphs[0] == HeadingCue(HeadingText(NormalizeText(text)))
    ensures !IsHeading(NormalizeText(text)) ==> paragraphs[0] == NormalizeText(text)
    ensures '\n' !in paragraphs[0]
  {
    var t := ReplaceNbsp(text);
    t := SpaceEmDashes(t);
    t := CollapseWhitespace(t);
    assert t == NormalizeText(text);
    CollapsedHasNoNewline(t);
    var lines := SplitOn(t, "\n");
    OccursChar('\n', t);
    SplitAbsent(t, "\n");
    var processed := RewriteHeadings(lines);
    t := Join("\n", processed);
    assert t == RewriteLine(NormalizeText(text));
    RewriteLineKeepsNoNewline(NormalizeText(text));
    paragraphs := SplitParagraphs(t);
    SplitParagraphsNoNewline(t);
  }

  // ---------------------------------------------------------------------
  // Properties
  // ---------------------------------------------------------------------

  /** Text without an em-dash passes the dash rule unchanged. */
  lemma {:induction false} DashFreeUnchanged(s: string)
    requires EmDash !in s
    ensures SpaceEmDashes(s) == s
    decreases |s|
  {
    if s != [] {
      DashFreeUnchanged(s[1..]);
      assert s == [s[0]] + s[1..];
    }
  }

  lemma NonSpaceCons(c: char, t: string)
    ensures NonSpace([c] + t) == (if IsSpace(c) then [] else [c]) + NonSpace(t)
  {
    assert ([c] + t)[1..] == t;
  }

  lemma {:induction false} NonSpaceAppend(a: string, b: string)
    ensures NonSpace(a + b) == NonSpace(a) + NonSpace(b)
    decreases |a|
  {
    if a == [] {
      assert a + b == b;
    } else {
      NonSpaceAppend(a[1..], b);
      assert (a + b)[1..] == a[1..] + b;
    }
  }

  /** Text without an em-dash, in front of text that does not start with
      one, is scanned character by character and kept as it is. */
  lemma {:induction false} DashFreePrefix(a: string, z: string)
    requires EmDash !in a
    requires z == [] || z[0] != EmDash
    ensures SpaceEmDashes(a + z) == a + SpaceEmDashes(z)
    decreases |a|
  {
    if a == [] {
      assert a + z == z;
    } else {
      var s := a + z;
      assert s[0] == a[0];
      assert s[1..] == a[1..] + z;
      assert !DashMatch(s) by {
        if |s| >= 2 {
          assert s[1] == (if |a| >= 2 then a[1] else z[0]);
        }
      }
      DashFreePrefix(a[1..], z);
      AppendAssoc([a[0]], a[1..], SpaceEmDashes(z));
      assert a == [a[0]] + a[1..];
    }
  }

  /** An em-dash between two word characters gets a space on each side,
      wherever it stands behind dash-free text. */
  lemma SpaceEmDashBetween(a: string, x: char, y: char, b: string)
    requires EmDash !in a && IsWordChar(x) && IsWordChar(y)
    ensures SpaceEmDashes(a + [x, EmDash, y] + b) == a + [x, ' ', EmDash, ' ', y] + SpaceEmDashes(b)
  {
    var z := [x, EmDash, y] + b;
    assert z[0] == x && DashMatch(z);
    assert z[3..] == b;
    AppendAssoc(a, [x, EmDash, y], b);
    DashFreePrefix(a, z);
    AppendAssoc(a, [x, ' ', EmDash, ' ', y], SpaceEmDashes(b));
  }

  /** A spaced dash group and the unspaced one have the same visible characters. */
  lemma NonSpaceDashGroup(a: char, b: char)
    requires !IsSpace(a) && !IsSpace(b)
    ensures NonSpace([a, ' ', EmDash, ' ', b]) == [a, EmDash, b]
    ensures NonSpace([a, EmDash, b]) == [a, EmDash, b]
  {
    var m := [a, ' ', EmDash, ' ', b];
    assert NonSpace([b]) == [b] by { assert [b][1..] == []; }
    assert NonSpace([' ', b]) == [b] by { assert [' ', b][1..] == [b]; }
    assert NonSpace([EmDash, ' ', b]) == [EmDash, b] by { assert [EmDash, ' ', b][1..] == [' ', b]; }
    assert NonSpace([' ', EmDash, ' ', b]) == [EmDash, b] by { assert [' ', EmDash, ' ', b][1..] == [EmDash, ' ', b]; }
    assert NonSpace(m) == [a, EmDash, b] by { assert m[1..] == [' ', EmDash, ' ', b]; }
    assert NonSpace([EmDash, b]) == [EmDash, b] by { assert [EmDash, b][1..] == [b]; }
    assert NonSpace([a, EmDash, b]) == [a, EmDash, b] by { assert [a, EmDash, b][1..] == [EmDash, b]; }
  }

  /** The dash rule only inserts spaces: the other characters keep their order. */
  lemma {:induction false} DashRuleOnlyInsertsSpaces(s: string)
    ensures NonSpace(SpaceEmDashes(s)) == NonSpace(s)
    decreases |s|
  {
    if s != [] {
      if DashMatch(s) {
        DashRuleOnlyInsertsSpaces(s[3..]);
        var m := [s[0], ' ', EmDash, ' ', s[2]];
        var o := [s[0], s[1], s[2]];
        NonSpaceDashGroup(s[0], s[2]);
        NonSpaceAppend(m, SpaceEmDashes(s[3..]));
        assert s == o + s[3..];
        NonSpaceAppend(o, s[3..]);
      } else {
        DashRuleOnlyInsertsSpaces(s[1..]);
        NonSpaceAppend([s[0]], SpaceEmDashes(s[1..]));
        assert s == [s[0]] + s[1..];
        NonSpaceAppend([s[0]], s[1..]);
      }
    }
  }

  /** Matches do not overlap: in `a—b—c` the `b` is used by the first match,
      so the second dash stays unspaced, and a second pass changes the text
      again. The dash rule is therefore not idempotent. */
  lemma DashRuleNotIdempotent()
    ensures SpaceEmDashes("a\U{2014}b\U{2014}c") == "a \U{2014} b\U{2014}c"
    ensures SpaceEmDashes("a \U{2014} b\U{2014}c") == "a \U{2014} b \U{2014} c"
  {
    var s := "a\U{2014}b\U{2014}c";
    assert DashMatch(s);
    assert s[3..] == "\U{2014}c";
    assert !DashMatch("\U{2014}c");
    assert "\U{2014}c"[1..] == "c";
    var t := "a \U{2014} b\U{2014}c";
    assert !DashMatch(t);
    assert t[1..] == " \U{2014} b\U{2014}c";
    assert !DashMatch(t[1..]);
    assert t[2..] == "\U{2014} b\U{2014}c";
    assert !DashMatch(t[2..]);
    assert t[3..] == " b\U{2014}c";
    assert !DashMatch(t[3..]);
    assert t[4..] == "b\U{2014}c";
    assert DashMatch(t[4..]);
    assert t[4..][3..] == [];
  }

  /** Collapsing only replaces whitespace: the other characters keep their order. */
  lemma {:induction false} CollapseKeepsContent(s: string)
    ensures NonSpace(CollapseWhitespace(s)) == NonSpace(s)
    decreases |s|
  {
    if s != [] {
      if IsSpace(s[0]) {
        var t := StripLeft(s);
        CollapseKeepsContent(t);
        StripLeftKeepsContent(s);
        NonSpaceAppend([' '], CollapseWhitespace(t));
      } else {
        CollapseKeepsContent(s[1..]);
        NonSpaceAppend([s[0]], CollapseWhitespace(s[1..]));
        assert s == [s[0]] + s[1..];
        NonSpaceAppend([s[0]], s[1..]);
      }
    }
  }

  lemma {:induction false} StripLeftKeepsContent(s: string)
    ensures NonSpace(StripLeft(s)) == NonSpace(s)
    decreases |s|
  {
    if s != [] && IsSpace(s[0]) {
      StripLeftKeepsContent(s[1..]);
    }
  }

  /** Collapsed text is a fixed point of the collapse. */
  lemma {:induction false} CollapseFixesCollapsed(s: string)
    requires Collapsed(s)
    ensures CollapseWhitespace(s) == s
    decreases |s|
  {
    if s != [] {
      assert Collapsed(s[1..]) by {
        forall i | 0 < i < |s[1..]| && s[1..][i] == ' '
          ensures s[1..][i - 1] != ' '
        {
          assert s[i + 1] == ' ';
        }
      }
      CollapseFixesCollapsed(s[1..]);
      if IsSpace(s[0]) {
        if |s| > 1 {
          assert s[1] != ' ';
          assert !IsSpace(s[1]);
          assert StripLeft(s[1..]) == s[1..];
        }
        assert StripLeft(s) == s[1..];
      }
      assert s == [s[0]] + s[1..];
    }
  }

  /** The whitespace step is idempotent. */
  lemma CollapseIdempotent(s: string)
    ensures CollapseWhitespace(CollapseWhitespace(s)) == CollapseWhitespace(s)
  {
    CollapseFixesCollapsed(CollapseWhitespace(s));
  }

  /** Left-stripping a whitespace run in front of text that does not start
      with whitespace removes exactly the run. */
  lemma {:induction false} StripLeftRun(w: string, b: string)
    requires forall k :: 0 <= k < |w| ==> IsSpace(w[k])
    requires b == [] || !IsSpace(b[0])
    ensures StripLeft(w + b) == b
    decreases |w|
  {
    if w == [] {
      assert w + b == b;
    } else {
      assert (w + b)[1..] == w[1..] + b;
      StripLeftRun(w[1..], b);
    }
  }

  /** A whitespace run in front of visible text, or at the end, becomes one
      space in its place. */
  lemma CollapseRun(w: string, b: string)
    requires w != [] && forall k :: 0 <= k < |w| ==> IsSpace(w[k])
    requires b == [] || !IsSpace(b[0])
    ensures CollapseWhitespace(w + b) == " " + CollapseWhitespace(b)
  {
    assert (w + b)[0] == w[0];
    StripLeftRun(w, b);
  }

  /** Left-stripping text that holds a visible character does not reach
      whatever follows it. */
  lemma {:induction false} StripLeftAppend(a: string, z: string)
    requires a != [] && !IsSpace(a[|a| - 1])
    ensures StripLeft(a + z) == StripLeft(a) + z
    decreases |a|
  {
    assert (a + z)[0] == a[0];
    if IsSpace(a[0]) {
      assert (a + z)[1..] == a[1..] + z;
      StripLeftAppend(a[1..], z);
    }
  }

  /** Text that ends with a visible character collapses on its own: what
      follows it does not change how it collapses. */
  lemma {:induction false} CollapseAppend(a: string, z: string)
    requires a == [] || !IsSpace(a[|a| - 1])
    ensures CollapseWhitespace(a + z) == CollapseWhitespace(a) + CollapseWhitespace(z)
    decreases |a|
  {
    if a == [] {
      assert a + z == z;
    } else {
      assert (a + z)[0] == a[0];
      if IsSpace(a[0]) {
        var t := StripLeft(a);
        StripLeftAppend(a, z);
        assert t != [] && t[|t| - 1] == a[|a| - 1];
        CollapseAppend(t, z);
        AppendAssoc([' '], CollapseWhitespace(t), CollapseWhitespace(z));
      } else {
        assert (a + z)[1..] == a[1..] + z;
        CollapseAppend(a[1..], z);
        AppendAssoc([a[0]], CollapseWhitespace(a[1..]), CollapseWhitespace(z));
      }
    }
  }

  /** `\s+ -> " "` in place: a whitespace run between two visible
      characters becomes exactly one space there, so words on either side
      of a line break are never merged. */
  lemma CollapseRunBetween(a: string, w: string, b: string)
    requires a != [] && !IsSpace(a[|a| - 1])
    requires w != [] && forall k :: 0 <= k < |w| ==> IsSpace(w[k])
    requires b == [] || !IsSpace(b[0])
    ensures CollapseWhitespace(a + w + b) == CollapseWhitespace(a) + " " + CollapseWhitespace(b)
  {
    AppendAssoc(a, w, b);
    CollapseAppend(a, w + b);
    CollapseRun(w, b);
    AppendAssoc(CollapseWhitespace(a), " ", CollapseWhitespace(b));
  }

  /** Two visible characters on either side of a line break end up
      separated by one space. */
  lemma CollapseLineBreak(x: char, y: char)
    requires !IsSpace(x) && !IsSpace(y)
    ensures CollapseWhitespace([x, '\n', y]) == [x, ' ', y]
  {
    CollapseRunBetween([x], ['\n'], [y]);
    assert [x] + ['\n'] + [y] == [x, '\n', y];
    CollapseFixesCollapsed([x]);
    CollapseFixesCollapsed([y]);
  }

  /** The collapsed text ends with a space exactly when the input ends with
      whitespace. */
  lemma {:induction false} CollapseLast(s: string)
    requires s != []
    ensures var r := CollapseWhitespace(s);
      r != [] && (r[|r| - 1] == ' ' <==> IsSpace(s[|s| - 1]))
    decreases |s|
  {
    if IsSpace(s[0]) {
      var t := StripLeft(s);
      if t != [] {
        CollapseLast(t);
        assert t[|t| - 1] == s[|s| - 1];
      }
    } else if |s| > 1 {
      CollapseLast(s[1..]);
    }
  }

  /** Strings that agree at every position, up to which whitespace
      character stands where, have the same visible content. */
  lemma {:induction false} SameUpToSpaces(r: string, t: string)
    requires |r| == |t|
    requires forall i :: 0 <= i < |t| ==> r[i] == t[i] || (IsSpace(r[i]) && IsSpace(t[i]))
    ensures NonSpace(r) == NonSpace(t)
    decreases |t|
  {
    if t != [] {
      SameUpToSpaces(r[1..], t[1..]);
    }
  }

  /** Normalisation only adds, removes and changes whitespace: the visible
      characters of the text are kept, in order. */
  lemma NormalizeKeepsContent(text: string)
    ensures NonSpace(NormalizeText(text)) == NonSpace(text)
  {
    var t := ReplaceNbsp(text);
    SameUpToSpaces(t, text);
    DashRuleOnlyInsertsSpaces(t);
    CollapseKeepsContent(SpaceEmDashes(t));
  }

  /** A visible character is in a string exactly when it is in its visible content. */
  lemma {:induction false} VisibleMembership(s: string, c: char)
    requires !IsSpace(c)
    ensures c in s <==> c in NonSpace(s)
    decreases |s|
  {
    if s != [] {
      VisibleMembership(s[1..], c);
      assert s == [s[0]] + s[1..];
    }
  }

  /** So normalisation introduces no visible character, `<` included. */
  lemma NormalizeAddsNoVisibleChar(text: string, c: char)
    requires !IsSpace(c) && c !in text
    ensures c !in NormalizeText(text)
  {
    NormalizeKeepsContent(text);
    VisibleMembership(text, c);
    VisibleMembership(NormalizeText(text), c);
  }

  /** No newline survives the whitespace step. */
  lemma CollapsedHasNoNewline(s: string)
    requires Collapsed(s)
    ensures '\n' !in s
  {
    if '\n' in s {
      var i :| 0 <= i < |s| && s[i] == '\n';
      assert IsSpace(s[i]);
    }
  }

  /** The heading rewrite adds no newline. */
  lemma RewriteLineKeepsNoNewline(line: string)
    requires '\n' !in line
    ensures '\n' !in RewriteLine(line)
  {
    if IsHeading(line) {
      var n := LeadingHashes(line);
      var t := HeadingText(line);
      assert t == line[n..][|line[n..]| - |t|..];
      assert t == line[|line| - |t|..];
      HeadingCueNewlines(t);
    }
  }

  /** Text without a newline is a single paragraph. */
  lemma {:induction false} SplitParagraphsNoNewline(s: string)
    requires '\n' !in s
    ensures SplitParagraphs(s) == [s]
    decreases |s|
  {
    if s != [] {
      SplitParagraphsNoNewline(s[1..]);
      assert s == [s[0]] + s[1..];
    }
  }

  /** `p` holds no two newlines in a row. */
  predicate NoBlankLine(p: string) {
    forall i :: 0 <= i < |p| - 1 ==> !(p[i] == '\n' && p[i + 1] == '\n')
  }

  /** The split removes every run of two or more newlines: no paragraph
      holds one, and the first paragraph is a prefix of the text. */
  lemma {:induction false} SplitParagraphsPieces(s: string)
    ensures var r := SplitParagraphs(s);
      && |r[0]| <= |s| && r[0] == s[..|r[0]|]
      && forall k :: 0 <= k < |r| ==> NoBlankLine(r[k])
    decreases |s|
  {
    if s != [] {
      var n := NewlineRun(s);
      if n >= 2 {
        SplitParagraphsPieces(s[n..]);
      } else {
        var rest := SplitParagraphs(s[1..]);
        SplitParagraphsPieces(s[1..]);
        var p := [s[0]] + rest[0];
        assert p == s[..|p|];
        assert NoBlankLine(p) by {
          if s[0] == '\n' && rest[0] != [] {
            assert NewlineRun(s[1..]) == 0;
            assert p[1] == s[1] != '\n';
          }
          forall i | 1 <= i < |p| - 1 ensures !(p[i] == '\n' && p[i + 1] == '\n') {
            assert p[i] == rest[0][i - 1] && p[i + 1] == rest[0][i];
          }
        }
        var r := [p] + rest[1..];
        forall k | 1 <= k < |r| ensures NoBlankLine(r[k]) {
          assert r[k] == rest[k];
        }
      }
    }
  }

  /** Where the split cuts: the first paragraph is the text up to its first
      run of two or more newlines, or all of it when there is none, and the
      other paragraphs are the split of what follows that run. */
  lemma {:induction false} SplitParagraphsFirst(s: string)
    ensures var r := SplitParagraphs(s); var m := |r[0]|;
      && m <= |s| && r[0] == s[..m]
      && (m == |s| || (m + 1 < |s| && s[m] == '\n' && s[m + 1] == '\n'))
      && (m < |s| ==> r[1..] == SplitParagraphs(s[m + NewlineRun(s[m..])..]))
    decreases |s|
  {
    if s != [] {
      var n := NewlineRun(s);
      if n >= 2 {
        assert s[0] == '\n' && s[1] == '\n' by {
          assert NewlineRun(s[1..]) >= 1;
        }
        assert s[0..] == s;
      } else {
        var rest := SplitParagraphs(s[1..]);
        SplitParagraphsFirst(s[1..]);
        var m := 1 + |rest[0]|;
        assert SplitParagraphs(s) == [[s[0]] + rest[0]] + rest[1..];
        assert [s[0]] + rest[0] == s[..m];
        if m < |s| {
          var u := s[1..];
          assert u[m - 1..] == s[m..];
          assert u[m - 1 + NewlineRun(s[m..])..] == s[m + NewlineRun(s[m..])..];
          assert u[m - 1] == s[m] && u[m] == s[m + 1];
        }
      }
    }
  }

  /** A heading line is hashes, a non-empty whitespace run, then the heading
      text, which does not itself start with whitespace. */
  lemma HeadingParts(line: string)
    requires IsHeading(line)
    ensures var n := LeadingHashes(line); var t := HeadingText(line);
      && n + |t| < |line|
      && line == line[..n] + line[n..|line| - |t|] + t
      && (forall k :: 0 <= k < n ==> line[k] == '#')
      && (forall k :: n <= k < |line| - |t| ==> IsSpace(line[k]))
      && (t == [] || !IsSpace(t[0]))
  {
    var n := LeadingHashes(line);
    var rest := line[n..];
    var t := StripLeft(rest);
    assert IsSpace(rest[0]);
    assert |t| < |rest|;
    var m := |line| - |t|;
    assert t == line[m..];
    assert line == line[..n] + line[n..m] + line[m..];
    forall k | n <= k < m
      ensures IsSpace(line[k])
    {
      assert line[k] == rest[k - n];
    }
  }

  /** A heading marker of two hashes becomes the heading cue around the title. */
  lemma HeadingExample()
    ensures IsHeading("## Chapter 1")
    ensures RewriteLine("## Chapter 1") == HeadingCue("Chapter 1")
  {
    var line := "## Chapter 1";
    assert line[1..] == "# Chapter 1";
    var rest := line[2..];
    assert rest == " Chapter 1";
    assert LeadingHashes(rest) == 0;
    assert LeadingHashes(line) == 2;
    var title := rest[1..];
    assert title == "Chapter 1";
    assert !IsSpace(title[0]);
    assert StripLeft(title) == title;
    assert IsSpace(rest[0]);
    assert StripLeft(rest) == title;
  }
}

=== FILE: numerals.dfy ===
/** Decimal numerals: Python's `str(n)`, `int(s)` and the `{:04d}` format
    used in chunk file names, with string order as Python's `<` on `str`. */
module Numerals {

  predicate IsDigit(c: char) {
    '0' <= c <= '9'
  }

  predicate AllDigits(s: string) {
    forall i :: 0 <= i < |s| ==> IsDigit(s[i])
  }

  function DigitChar(d: nat): (c: char)
    requires d < 10
    ensures IsDigit(c)
  {
    (48 + d) as char
  }

  function DigitValue(c: char): (d: nat)
    requires IsDigit(c)
    ensures d < 10
  {
    c as int - 48
  }

  /** `str(n)` for a non-negative integer: its digits, most significant first, no leading zero. */
  function Decimal(n: nat): (r: string)
    ensures r != [] && AllDigits(r)
  {
    if n < 10 then [DigitChar(n)] else Decimal(n / 10) + [DigitChar(n % 10)]
  }

  /** `int(s)` for a non-empty string of ASCII digits (leading zeros allowed). */
  function Value(s: string): nat
    requires AllDigits(s)
  {
    if s == [] then 0 else Value(s[..|s| - 1]) * 10 + DigitValue(s[|s| - 1])
  }

  function Zeros(k: nat): (r: string)
    ensures |r| == k && AllDigits(r)
  {
    seq(k, _ => '0')
  }

  /** `f"{n:04d}"`: the decimal numeral, left-padded with zeros to width four. */
  function Format04(n: nat): (r: string)
    ensures AllDigits(r) && |r| >= 4
  {
    var d := Decimal(n);
    if |d| < 4 then Zeros(4 - |d|) + d else d
  }

  function Pow10(k: nat): (p: nat)
    ensures p >= 1
  {
    if k == 0 then 1 else 10 * Pow10(k - 1)
  }

  /** Python's `a < b` on strings: lexicographic order by code point. */
  predicate LexLess(a: string, b: string)
    decreases |a|
  {
    if a == [] then b != []
    else if b == [] then false
    else a[0] < b[0] || (a[0] == b[0] && LexLess(a[1..], b[1..]))
  }

  // ---------------------------------------------------------------------
  // Round trip and width of the numerals
  // ---------------------------------------------------------------------

  /** `int(str(n)) == n`. */
  lemma {:induction false} ValueOfDecimal(n: nat)
    ensures Value(Decimal(n)) == n
  {
    if n >= 10 {
      ValueOfDecimal(n / 10);
      var d := Decimal(n);
      assert d[..|d| - 1] == Decimal(n / 10);
    }
  }

  /** A number below `10^k` (k >= 1) has at most `k` digits. */
  lemma {:induction false} DecimalWidth(n: nat, k: nat)
    requires k >= 1 && n < Pow10(k)
    ensures |Decimal(n)| <= k
  {
    if n >= 10 {
      DecimalWidth(n / 10, k - 1);
    }
  }

  /** Leading zeros do not change the value of a numeral. */
  lemma {:induction false} ValueLeadingZeros(k: nat, s: string)
    requires AllDigits(s)
    ensures Value(Zeros(k) + s) == Value(s)
    decreases |s|, k
  {
    var z := Zeros(k) + s;
    if s == [] {
      assert z == Zeros(k);
      if k > 0 {
        assert z[..|z| - 1] == Zeros(k - 1);
        ValueLeadingZeros(k - 1, s);
        assert Zeros(k - 1) + s == Zeros(k - 1);
      }
    } else {
      assert z[..|z| - 1] == Zeros(k) + s[..|s| - 1];
      ValueLeadingZeros(k, s[..|s| - 1]);
    }
  }

  /** The padded numeral still denotes `n`. */
  lemma Format04Value(n: nat)
    ensures Value(Format04(n)) == n
  {
    ValueOfDecimal(n);
    var d := Decimal(n);
    if |d| < 4 {
      ValueLeadingZeros(4 - |d|, d);
    }
  }

  /** Below 10000 every name number has exactly four characters. */
  lemma Format04Width(n: nat)
    requires n < 10000
    ensures |Format04(n)| == 4
  {
    assert Pow10(4) == 10000;
    DecimalWidth(n, 4);
  }

  /** Distinct numbers give distinct padded numerals. */
  lemma Format04Injective(i: nat, j: nat)
    requires Format04(i) == Format04(j)
    ensures i == j
  {
    Format04Value(i);
    Format04Value(j);
  }

  // ---------------------------------------------------------------------
  // String order of numerals
  // ---------------------------------------------------------------------

  lemma {:induction false} LexLessExtend(a: string, b: string, x: char, y: char)
    requires |a| == |b| && LexLess(a, b)
    ensures LexLess(a + [x], b + [y])
    decreases |a|
  {
    if a[0] == b[0] && a[1..] != [] {
      LexLessExtend(a[1..], b[1..], x, y);
      assert (a + [x])[1..] == a[1..] + [x];
      assert (b + [y])[1..] == b[1..] + [y];
    }
  }

  lemma {:induction false} LexLessLast(a: string, x: char, y: char)
    requires x < y
    ensures LexLess(a + [x], a + [y])
    decreases |a|
  {
    if a != [] {
      LexLessLast(a[1..], x, y);
      assert (a + [x])[1..] == a[1..] + [x];
      assert (a + [y])[1..] == a[1..] + [y];
    }
  }

  /** Two numerals of the same length with the same value are the same string. */
  lemma {:induction false} EqualValueEqual(a: string, b: string)
    requires AllDigits(a) && AllDigits(b) && |a| == |b| && Value(a) == Value(b)
    ensures a == b
    decreases |a|
  {
    if a != [] {
      var n := |a|;
      EqualValueEqual(a[..n - 1], b[..n - 1]);
      assert a == a[..n - 1] + [a[n - 1]];
      assert b == b[..n - 1] + [b[n - 1]];
    }
  }

  /** For numerals of equal length, string order is numeric order. */
  lemma {:induction false} EqualLengthOrder(a: string, b: string)
    requires AllDigits(a) && AllDigits(b) && |a| == |b| && Value(a) < Value(b)
    ensures LexLess(a, b)
    decreases |a|
  {
    var n := |a|;
    var a', b' := a[..n - 1], b[..n - 1];
    assert a == a' + [a[n - 1]];
    assert b == b' + [b[n - 1]];
    if Value(a') < Value(b') {
      EqualLengthOrder(a', b');
      LexLessExtend(a', b', a[n - 1], b[n - 1]);
    } else if Value(a') == Value(b') {
      EqualValueEqual(a', b');
      LexLessLast(a', a[n - 1], b[n - 1]);
    }
  }

  /** Below 10000, the padded names sort in index order. */
  lemma Format04Order(i: nat, j: nat)
    requires i < j < 10000
    ensures LexLess(Format04(i), Format04(j))
  {
    Format04Width(i);
    Format04Width(j);
    Format04Value(i);
    Format04Value(j);
    EqualLengthOrder(Format04(i), Format04(j));
  }

  /** At 10000 the width grows and string order parts from index order. */
  lemma Format04OrderBreaksAt10000()
    ensures LexLess(Format04(10000), Format04(9999))
  {
    assert Decimal(1) == "1";
    assert Decimal(10) == "10";
    assert Decimal(100) == "100";
    assert Decimal(1000) == "1000";
    assert Decimal(10000) == "10000";
    assert Decimal(9) == "9";
    assert Decimal(99) == "99";
    assert Decimal(999) == "999";
    assert Decimal(9999) == "9999";
  }

  /** A common prefix keeps the order. */
  lemma {:induction false} LexLessPrefix(p: string, a: string, b: string)
    requires LexLess(a, b)
    ensures LexLess(p + a, p + b)
    decreases |p|
  {
    if p != [] {
      LexLessPrefix(p[1..], a, b);
      assert (p + a)[1..] == p[1..] + a;
      assert (p + b)[1..] == p[1..] + b;
    } else {
      assert p + a == a && p + b == b;
    }
  }

  /** Suffixes after two equal-length, ordered strings do not change the order. */
  lemma {:induction false} LexLessSuffix(a: string, b: string, s: string, t: string)
    requires |a| == |b| && LexLess(a, b)
    ensures LexLess(a + s, b + t)
    decreases |a|
  {
    if a[0] == b[0] {
      LexLessSuffix(a[1..], b[1..], s, t);
      assert (a + s)[1..] == a[1..] + s;
      assert (b + t)[1..] == b[1..] + t;
    }
  }
}

=== FILE: pipeline.dfy ===
/** How the stages fit together: the normaliser's output is the chunker's
    input, the chunk files the manifest lists are the synthesis stage's input. */
module Pipeline {
  import opened Strings
  import opened Numerals
  import opened Cues
  import opened TextNormalizer
  import opened Chunker
  import opened Markup
  import opened Manifest
  import opened Synthesis

  /** The paragraph list the normaliser hands to the chunker has one
      paragraph, so a book becomes at most one chunk, whatever the size
      limit: none when the text is blank, else the whole text with its
      abbreviations expanded and one pause cue. */
  lemma BookIsOneChunk(para: string, maxChars: int, table: Table)
    ensures Chunks([para], maxChars, table) ==
      if Blank(para) then [] else [Expand(Strip(para), table) + PauseCue]
  {
    if Blank(para) {
      BlankParagraphIgnored([], para, [], maxChars, table);
      assert [] + [para] + [] == [para];
      assert Chunks([], maxChars, table) == [];
    } else {
      SingleParagraphOneChunk(para, maxChars, table);
    }
  }

  /** A book without `<` and without a leading heading marker, whose
      abbreviation expansions hold no `<`, is synthesised from a single chunk
      that carries exactly one pause of 250 ms. */
  lemma PlainBookDecodes(text: string, maxChars: int, table: Table)
    requires '<' !in text
    requires forall e :: e in table ==> '<' !in e.1
    requires !IsHeading(NormalizeText(text)) && !Blank(NormalizeText(text))
    ensures var chunks := Chunks([NormalizeText(text)], maxChars, table);
      |chunks| == 1
      && Decode(chunks[0]) == Decoded([250], Expand(Strip(NormalizeText(text)), table) + "  ")
  {
    var t := NormalizeText(text);
    BookIsOneChunk(t, maxChars, table);
    NormalizeAddsNoVisibleChar(text, '<');
    var st := Strip(t);
    assert '<' !in st by {
      var l := StripLeft(t);
      assert st == l[..|st|] && l == t[|t| - |l|..];
    }
    ExpandKeepsOut(st, table, '<');
    PausedParagraphDecodes(Expand(st, table));
  }

  /** When the manifest lists every chunk file and each file holds its chunk,
      the audio saved for chunk `i` is the decoding of chunk `i`, under the
      name `chunk_{i:04d}` with the extension the writer uses. */
  lemma ChunkAudio(chunks: seq<string>, chunkDir: string, manifest: seq<Entry>, texts: map<string, TextFile>,
                   outDir: string, hasSoundfile: bool, audio: map<string, Decoded>, i: nat)
    requires |manifest| == |chunks|
    requires forall k :: 0 <= k < |chunks| ==> manifest[k] == Entry(k, ChunkPath(chunkDir, k))
    requires forall k :: 0 <= k < |chunks| ==>
      ChunkPath(chunkDir, k) in texts && texts[ChunkPath(chunkDir, k)] == Readable(chunks[k])
    requires hasSoundfile || '.' !in outDir
    requires i < |chunks|
    ensures var out := Store(audio, Outcomes(manifest, texts, outDir, hasSoundfile));
      var path := outDir + "/chunk_" + Format04(i) + (if hasSoundfile then ".wav" else ".npy");
      path in out && out[path] == Decode(chunks[i])
  {
    assert DistinctIndices(manifest);
    SavedAudio(manifest, texts, outDir, hasSoundfile, audio, i);
  }
}

=== FILE: strings.dfy ===
/** Character classes and the few `str` operations of Python that the
    pipeline uses, on Dafny strings (sequences of Unicode scalar values,
    which is what Python's `len` and indexing count). */
module Strings {

  /** The `\s` class of Python's `re` on str patterns, which is also what
      `str.isspace` and `str.strip()` treat as whitespace. */
  predicate IsSpace(c: char) {
    c == ' ' || '\t' <= c <= '\r' || '\U{1C}' <= c <= '\U{1F}' || c == '\U{85}' || c == '\U{A0}'
    || c == '\U{1680}' || '\U{2000}' <= c <= '\U{200A}' || c == '\U{2028}' || c == '\U{2029}'
    || c == '\U{202F}' || c == '\U{205F}' || c == '\U{3000}'
  }

  /** The `\w` class (letters, digits, underscore), restricted to ASCII. */
  predicate IsWordChar(c: char) {
    'a' <= c <= 'z' || 'A' <= c <= 'Z' || '0' <= c <= '9' || c == '_'
  }

  function LowerChar(c: char): char {
    if 'A' <= c <= 'Z' then (c as int + 32) as char else c
  }

  function UpperChar(c: char): char {
    if 'a' <= c <= 'z' then (c as int - 32) as char else c
  }

  /** `str.lower`, on ASCII letters. */
  function Lower(s: string): (r: string)
    ensures |r| == |s|
    ensures forall i :: 0 <= i < |s| ==> r[i] == LowerChar(s[i])
  {
    if s == [] then [] else [LowerChar(s[0])] + Lower(s[1..])
  }

  /** `str.upper`, on ASCII letters. */
  function Upper(s: string): (r: string)
    ensures |r| == |s|
    ensures forall i :: 0 <= i < |s| ==> r[i] == UpperChar(s[i])
  {
    if s == [] then [] else [UpperChar(s[0])] + Upper(s[1..])
  }

  /** Lowering leaves text without upper-case ASCII letters unchanged. */
  lemma LowerKeeps(s: string)
    requires forall i :: 0 <= i < |s| ==> !('A' <= s[i] <= 'Z')
    ensures Lower(s) == s
  {
  }

  /** Lowering forgets the case that upper-casing set. */
  lemma LowerOfUpper(s: string)
    ensures Lower(Upper(s)) == Lower(s)
  {
    var u := Upper(s);
    forall i | 0 <= i < |s| ensures Lower(u)[i] == Lower(s)[i] {
      assert u[i] == UpperChar(s[i]);
    }
  }

  /** `s.lstrip()`: the longest suffix of `s` that does not start with whitespace. */
  function StripLeft(s: string): (r: string)
    ensures |r| <= |s| && r == s[|s| - |r|..]
    ensures r == [] || !IsSpace(r[0])
    ensures forall k :: 0 <= k < |s| - |r| ==> IsSpace(s[k])
  {
    if s != [] && IsSpace(s[0]) then StripLeft(s[1..]) else s
  }

  /** `s.rstrip()`: the longest prefix of `s` that does not end with whitespace. */
  function StripRight(s: string): (r: string)
    ensures |r| <= |s| && r == s[..|r|]
    ensures r == [] || !IsSpace(r[|r| - 1])
    ensures forall k :: |r| <= k < |s| ==> IsSpace(s[k])
  {
    if s != [] && IsSpace(s[|s| - 1]) then StripRight(s[..|s| - 1]) else s
  }

  /** Everything of `s` outside `s[a..b]` is whitespace. */
  predicate OnlySpaceOutside(s: string, a: int, b: int) {
    && 0 <= a <= b <= |s|
    && (forall k :: 0 <= k < a ==> IsSpace(s[k]))
    && (forall k :: b <= k < |s| ==> IsSpace(s[k]))
  }

  /** `s.strip()`: `s` without its leading and trailing whitespace, which
      is a piece of `s` cut out of whitespace. */
  function Strip(s: string): (r: string)
    ensures exists a, b :: OnlySpaceOutside(s, a, b) && r == s[a..b]
    ensures r == [] || (!IsSpace(r[0]) && !IsSpace(r[|r| - 1]))
    ensures r == [] <==> forall k :: 0 <= k < |s| ==> IsSpace(s[k])
  {
    var l := StripLeft(s);
    StripBothEnds(s, |s| - |l|, l, StripRight(l));
    StripRight(l)
  }

  /** Where the two strips cut `s`: `l`, the suffix of `s` from `a`, is what
      the left strip leaves and `r`, a prefix of `l`, what the right strip
      leaves of that. */
  lemma {:induction false} StripBothEnds(s: string, a: int, l: string, r: string)
    requires 0 <= a <= |s| && l == s[a..] && |r| <= |l| && r == l[..|r|]
    requires forall k :: 0 <= k < a ==> IsSpace(s[k])
    requires forall k :: |r| <= k < |l| ==> IsSpace(l[k])
    ensures OnlySpaceOutside(s, a, a + |r|)
    ensures r == s[a..a + |r|]
  {
    forall k | a + |r| <= k < |s| ensures IsSpace(s[k]) {
      assert s[k] == l[k - a];
    }
  }

  /** `key` occurs in `s` as a contiguous piece. */
  predicate Occurs(key: string, s: string)
    decreases |s|
  {
    (|key| <= |s| && s[..|key|] == key) || (s != [] && Occurs(key, s[1..]))
  }

  /** `s.replace(key, val)`: every non-overlapping occurrence of `key`, found
      left to right, is replaced by `val`; an empty `key` matches before
      every character and at the end. */
  function ReplaceAll(s: string, key: string, val: string): string
    decreases |s|
  {
    if key == [] then
      if s == [] then val else val + [s[0]] + ReplaceAll(s[1..], key, val)
    else if |s| < |key| then s
    else if s[..|key|] == key then val + ReplaceAll(s[|key|..], key, val)
    else [s[0]] + ReplaceAll(s[1..], key, val)
  }

  /** `s.split(sep)` for a non-empty separator. */
  function SplitOn(s: string, sep: string): (r: seq<string>)
    requires sep != []
    ensures |r| >= 1
    decreases |s|
  {
    if |s| < |sep| then [s]
    else if s[..|sep|] == sep then [""] + SplitOn(s[|sep|..], sep)
    else
      var rest := SplitOn(s[1..], sep);
      [[s[0]] + rest[0]] + rest[1..]
  }

  /** `sep.join(parts)`. */
  function Join(sep: string, parts: seq<string>): string {
    if parts == [] then []
    else if |parts| == 1 then parts[0]
    else parts[0] + sep + Join(sep, parts[1..])
  }

  /** Total length of a list of strings. */
  function SumLen(parts: seq<string>): (n: nat)
    ensures parts != [] ==> n >= |parts[0]|
  {
    if parts == [] then 0 else |parts[0]| + SumLen(parts[1..])
  }

  // ---------------------------------------------------------------------
  // Properties of the operations above
  // ---------------------------------------------------------------------

  /** Regrouping a concatenation, stated once so that proofs can cite it in
      a small context. */
  lemma AppendAssoc<T>(x: seq<T>, p: seq<T>, q: seq<T>)
    ensures x + (p + q) == (x + p) + q
  {
  }

  /** Joining the pieces of a split with the same separator gives the string back. */
  lemma {:induction false} JoinSplit(s: string, sep: string)
    requires sep != []
    ensures Join(sep, SplitOn(s, sep)) == s
    decreases |s|
  {
    if |s| < |sep| {
    } else if s[..|sep|] == sep {
      var rest := SplitOn(s[|sep|..], sep);
      assert Join(sep, SplitOn(s, sep)) == sep + Join(sep, rest) by {
        assert SplitOn(s, sep) == [""] + rest;
        assert ([""] + rest)[1..] == rest;
      }
      assert Join(sep, rest) == s[|sep|..] by {
        JoinSplit(s[|sep|..], sep);
      }
      assert s == sep + s[|sep|..];
    } else {
      var rest := SplitOn(s[1..], sep);
      assert Join(sep, SplitOn(s, sep)) == [s[0]] + Join(sep, rest) by {
        JoinConsFirst(sep, [s[0]], rest);
      }
      assert Join(sep, rest) == s[1..] by {
        JoinSplit(s[1..], sep);
      }
      assert s == [s[0]] + s[1..];
    }
  }

  /** Prepending to the first part of a join prepends to the result. */
  lemma JoinConsFirst(sep: string, pre: string, parts: seq<string>)
    requires parts != []
    ensures Join(sep, [pre + parts[0]] + parts[1..]) == pre + Join(sep, parts)
  {
    var q := [pre + parts[0]] + parts[1..];
    if |parts| > 1 {
      assert q[1..] == parts[1..];
    }
  }

  /** `s.replace(key, val) == val.join(s.split(key))` for a non-empty key. */
  lemma {:induction false} ReplaceIsJoinOfSplit(s: string, key: string, val: string)
    requires key != []
    ensures ReplaceAll(s, key, val) == Join(val, SplitOn(s, key))
    decreases |s|
  {
    if |s| < |key| {
    } else if s[..|key|] == key {
      ReplaceIsJoinOfSplit(s[|key|..], key, val);
    } else {
      ReplaceIsJoinOfSplit(s[1..], key, val);
      JoinConsFirst(val, [s[0]], SplitOn(s[1..], key));
    }
  }

  /** A string in which the key does not occur is left unchanged by a replacement. */
  lemma {:induction false} ReplaceAbsent(s: string, key: string, val: string)
    requires key != [] && !Occurs(key, s)
    ensures ReplaceAll(s, key, val) == s
    decreases |s|
  {
    if |s| >= |key| {
      ReplaceAbsent(s[1..], key, val);
      assert s == [s[0]] + s[1..];
    }
  }

  /** A string without the separator splits into itself alone. */
  lemma {:induction false} SplitAbsent(s: string, sep: string)
    requires sep != [] && !Occurs(sep, s)
    ensures SplitOn(s, sep) == [s]
    decreases |s|
  {
    if |s| >= |sep| {
      SplitAbsent(s[1..], sep);
      assert s == [s[0]] + s[1..];
    }
  }

  /** A one-character key occurs exactly when that character does. */
  lemma {:induction false} OccursChar(c: char, s: string)
    ensures Occurs([c], s) <==> c in s
    decreases |s|
  {
    if s != [] {
      OccursChar(c, s[1..]);
      assert s == [s[0]] + s[1..];
    }
  }

  /** Replacing a single character by a single character is a character-wise map. */
  lemma {:induction false} ReplaceCharByChar(s: string, c: char, d: char)
    ensures |ReplaceAll(s, [c], [d])| == |s|
    ensures forall i :: 0 <= i < |s| ==>
      ReplaceAll(s, [c], [d])[i] == (if s[i] == c then d else s[i])
    decreases |s|
  {
    if s != [] {
      ReplaceCharByChar(s[1..], c, d);
      assert s[..1] == [s[0]];
    }
  }

  /** After a one-character key is replaced by text without that character,
      the character no longer occurs. */
  lemma {:induction false} ReplaceRemovesChar(s: string, c: char, val: string)
    requires c !in val
    ensures c !in ReplaceAll(s, [c], val)
    decreases |s|
  {
    if s != [] {
      ReplaceRemovesChar(s[1..], c, val);
      assert s[..1] == [s[0]];
    }
  }

  /** A prefix that holds no first character of the key passes through a replacement unchanged. */
  lemma {:induction false} ReplaceSkipsPrefix(a: string, b: string, key: string, val: string)
    requires key != [] && key[0] !in a
    ensures ReplaceAll(a + b, key, val) == a + ReplaceAll(b, key, val)
    decreases |a|
  {
    if a == [] {
      assert a + b == b;
    } else {
      var s := a + b;
      if |s| < |key| {
        assert ReplaceAll(b, key, val) == b;
        assert ReplaceAll(s, key, val) == s;
      } else {
        var r := ReplaceAll(b, key, val);
        calc {
          ReplaceAll(s, key, val);
          == { assert s[..|key|][0] == a[0]; }
          [s[0]] + ReplaceAll(s[1..], key, val);
          == { assert s[1..] == a[1..] + b; ReplaceSkipsPrefix(a[1..], b, key, val); }
          [a[0]] + (a[1..] + r);
          == { AppendAssoc([a[0]], a[1..], r); assert [a[0]] + a[1..] == a; }
          a + r;
        }
      }
    }
  }

  /** A character in neither the text nor the replacement is not in the result. */
  lemma {:induction false} ReplaceKeepsOut(s: string, key: string, val: string, c: char)
    requires c !in s && c !in val
    ensures c !in ReplaceAll(s, key, val)
    decreases |s|
  {
    if s != [] {
      if key != [] && |s| >= |key| && s[..|key|] == key {
        ReplaceKeepsOut(s[|key|..], key, val, c);
      } else {
        ReplaceKeepsOut(s[1..], key, val, c);
      }
    }
  }

  /** The rendered length of a non-empty join is the total length plus one
      separator between each pair of neighbours. */
  lemma {:induction false} JoinLength(sep: string, parts: seq<string>)
    requires parts != []
    ensures |Join(sep, parts)| == SumLen(parts) + (|parts| - 1) * |sep|
  {
    if |parts| > 1 {
      JoinLength(sep, parts[1..]);
    }
  }

  /** Joining two non-empty lists puts one separator between their joins. */
  lemma {:induction false} JoinAppend(sep: string, a: seq<string>, b: seq<string>)
    requires a != [] && b != []
    ensures Join(sep, a + b) == Join(sep, a) + sep + Join(sep, b)
  {
    var ab := a + b;
    assert ab[0] == a[0] && |ab| > 1;
    if |a| == 1 {
      assert ab[1..] == b;
    } else {
      var ja, jb := Join(sep, a[1..]), Join(sep, b);
      calc {
        Join(sep, ab);
        a[0] + sep + Join(sep, ab[1..]);
        == { assert ab[1..] == a[1..] + b; JoinAppend(sep, a[1..], b); }
        a[0] + sep + (ja + sep + jb);
        == { Regroup4(a[0] + sep, ja, sep, jb); }
        a[0] + sep + ja + sep + jb;
      }
    }
  }

  lemma SliceAppend<T>(a: seq<T>, b: seq<T>, k: nat)
    requires k <= |a|
    ensures (a + b)[k..] == a[k..] + b
  {
  }

  lemma Regroup4<T>(p: seq<T>, q: seq<T>, r: seq<T>, u: seq<T>)
    ensures p + (q + r + u) == p + q + r + u
  {
  }

  /** Every member of a list is no longer than the list's total length. */
  lemma {:induction false} SumLenBoundsMembers(parts: seq<string>, j: nat)
    requires j < |parts|
    ensures |parts[j]| <= SumLen(parts)
  {
    if j > 0 {
      SumLenBoundsMembers(parts[1..], j - 1);
    }
  }

  lemma {:induction false} SumLenAppend(a: seq<string>, b: seq<string>)
    ensures SumLen(a + b) == SumLen(a) + SumLen(b)
  {
    if a != [] {
      SumLenAppend(a[1..], b);
      assert (a + b)[1..] == a[1..] + b;
    } else {
      assert a + b == b;
    }
  }
}

=== FILE: synthesis.dfy ===
/** The manifest loop of the synthesis stage: for every manifest entry, in
    order, the chunk text is read, decoded into pauses and plain text, and
    the result is saved as `chunk_{idx:04d}.wav` (or, without an audio
    writer, as the same name with `.wav` replaced by `.npy`). An entry whose
    text file is missing is skipped; an entry whose processing raises is
    reported and skipped. */
module Synthesis {
  import opened Strings
  import opened Numerals
  import opened Markup
  import opened Manifest

  /** What the file system holds at a text path, when it holds anything. */
  datatype TextFile = Readable(text: string) | Unreadable

  /** What happened to one manifest entry. */
  datatype Outcome =
    | Saved(path: string, sound: Decoded)
    | MissingText
    | Failed

  /** The `.wav` name of entry `idx` under a directory given without a trailing slash. */
  function WavPath(outDir: string, idx: nat): string {
    outDir + "/chunk_" + Format04(idx) + ".wav"
  }

  /** Below 10000 chunks, sorting the audio file names by string order, as
      the packager does before concatenating them, lists the chunks in index
      order. */
  lemma WavPathsSortInIndexOrder(outDir: string, i: nat, j: nat)
    requires i < j < 10000
    ensures LexLess(WavPath(outDir, i), WavPath(outDir, j))
  {
    Format04Order(i, j);
    Format04Width(i);
    Format04Width(j);
    LexLessSuffix(Format04(i), Format04(j), ".wav", ".wav");
    LexLessPrefix(outDir + "/chunk_", Format04(i) + ".wav", Format04(j) + ".wav");
    assert WavPath(outDir, i) == (outDir + "/chunk_") + (Format04(i) + ".wav");
    assert WavPath(outDir, j) == (outDir + "/chunk_") + (Format04(j) + ".wav");
  }

  /** The audio of the 10001st chunk sorts before that of the 10000th. */
  lemma WavPathOrderBreaksAt10000(outDir: string)
    ensures LexLess(WavPath(outDir, 10000), WavPath(outDir, 9999))
  {
    Format04OrderBreaksAt10000();
    var a, b := Format04(10000) + ".wav", Format04(9999) + ".wav";
    assert a[0] == '1' && b[0] == '9';
    LexLessPrefix(outDir + "/chunk_", a, b);
    assert WavPath(outDir, 10000) == (outDir + "/chunk_") + a;
    assert WavPath(outDir, 9999) == (outDir + "/chunk_") + b;
  }

  /** Where the audio is saved: the `.wav` name, or that name with every
      `.wav` in it replaced by `.npy` when no audio writer is installed. */
  function OutputPath(outDir: string, idx: nat, hasSoundfile: bool): string {
    if hasSoundfile then WavPath(outDir, idx) else ReplaceAll(WavPath(outDir, idx), ".wav", ".npy")
  }

  /** The outcome of one entry, given the text files that exist. */
  function ItemOutcome(item: Entry, texts: map<string, TextFile>, outDir: string, hasSoundfile: bool): Outcome {
    if item.textFile !in texts then MissingText
    else match texts[item.textFile]
      case Unreadable => Failed
      case Readable(text) => Saved(OutputPath(outDir, item.idx, hasSoundfile), Decode(text))
  }

  /** The outcomes of a whole manifest, entry by entry. */
  function Outcomes(manifest: seq<Entry>, texts: map<string, TextFile>, outDir: string, hasSoundfile: bool): (r: seq<Outcome>)
    ensures |r| == |manifest|
  {
    seq(|manifest|, i requires 0 <= i < |manifest| => ItemOutcome(manifest[i], texts, outDir, hasSoundfile))
  }

  /** The saved audio after a sequence of outcomes, in order, starting from `audio`. */
  function Store(audio: map<string, Decoded>, outcomes: seq<Outcome>): map<string, Decoded> {
    if outcomes == [] then audio
    else
      var before := Store(audio, outcomes[..|outcomes| - 1]);
      match outcomes[|outcomes| - 1]
      case Saved(path, sound) => before[path := sound]
      case _ => before
  }

  /** The loop over the manifest. `audio` is what the output directory held before. */
  method GenerateAll(manifest: seq<Entry>, texts: map<string, TextFile>, outDir: string, hasSoundfile: bool,
                     audio: map<string, Decoded>)
    returns (outcomes: seq<Outcome>, saved: map<string, Decoded>)
    ensures outcomes == Outcomes(manifest, texts, outDir, hasSoundfile)
    ensures saved == Store(audio, outcomes)
  {
    outcomes := [];
    saved := audio;
    for i := 0 to |manifest|
      invariant outcomes == Outcomes(manifest[..i], texts, outDir, hasSoundfile)
      invariant saved == Store(audio, outcomes)
    {
      var item := manifest[i];
      var outcome;
      if item.textFile !in texts {
        outcome := MissingText;
      } else {
        match texts[item.textFile]
        case Unreadable =>
          outcome := Failed;
        case Readable(text) =>
          var path := OutputPath(outDir, item.idx, hasSoundfile);
          outcome := Saved(path, Decode(text));
          saved := saved[path := Decode(text)];
      }
      assert (outcomes + [outcome])[..|outcomes|] == outcomes;
      outcomes := outcomes + [outcome];
      assert manifest[..i + 1] == manifest[..i] + [manifest[i]];
    }
    assert manifest[..|manifest|] == manifest;
  }

  // ---------------------------------------------------------------------
  // Output names
  // ---------------------------------------------------------------------

  /** A name without a dot before its `.wav` ending becomes the same name ending in `.npy`. */
  lemma NpyName(pre: string)
    requires '.' !in pre
    ensures ReplaceAll(pre + ".wav", ".wav", ".npy") == pre + ".npy"
  {
    ReplaceSkipsPrefix(pre, ".wav", ".wav", ".npy");
    assert ReplaceAll(".wav", ".wav", ".npy") == ".npy" + ReplaceAll([], ".wav", ".npy");
  }

  /** With an audio writer, or when the directory name has no dot, the
      output is `chunk_{idx:04d}` with the matching extension. */
  lemma OutputPathShape(outDir: string, idx: nat, hasSoundfile: bool)
    requires hasSoundfile || '.' !in outDir
    ensures OutputPath(outDir, idx, hasSoundfile) ==
      outDir + "/chunk_" + Format04(idx) + (if hasSoundfile then ".wav" else ".npy")
  {
    if !hasSoundfile {
      var pre := outDir + "/chunk_" + Format04(idx);
      assert '.' !in pre by {
        assert forall k :: 0 <= k < |Format04(idx)| ==> IsDigit(Format04(idx)[k]);
      }
      NpyName(pre);
      assert WavPath(outDir, idx) == pre + ".wav";
    }
  }

  /** Under the same condition, distinct entries get distinct outputs. */
  lemma OutputPathInjective(outDir: string, i: nat, j: nat, hasSoundfile: bool)
    requires hasSoundfile || '.' !in outDir
    requires OutputPath(outDir, i, hasSoundfile) == OutputPath(outDir, j, hasSoundfile)
    ensures i == j
  {
    OutputPathShape(outDir, i, hasSoundfile);
    OutputPathShape(outDir, j, hasSoundfile);
    var pre := outDir + "/chunk_";
    var a, b := OutputPath(outDir, i, hasSoundfile), OutputPath(outDir, j, hasSoundfile);
    assert |a| == |pre| + |Format04(i)| + 4 && |b| == |pre| + |Format04(j)| + 4;
    assert Format04(i) == a[|pre|..|pre| + |Format04(i)|];
    assert Format04(j) == b[|pre|..|pre| + |Format04(j)|];
    Format04Injective(i, j);
  }

  /** Every `.wav` in the path is replaced, the directory's included: under
      `out.wavs` the fallback name lands in a directory `out.npys`. */
  lemma NpyFallbackRenamesDirectory(dir: string, sub: string, idx: nat)
    requires '.' !in dir && '.' !in sub
    ensures OutputPath(dir + ".wav" + sub, idx, false) == dir + ".npy" + sub + "/chunk_" + Format04(idx) + ".npy"
  {
    var rest := sub + "/chunk_" + Format04(idx);
    assert '.' !in rest by {
      assert forall k :: 0 <= k < |Format04(idx)| ==> IsDigit(Format04(idx)[k]);
    }
    calc {
      OutputPath(dir + ".wav" + sub, idx, false);
      ReplaceAll(WavPath(dir + ".wav" + sub, idx), ".wav", ".npy");
      { assert WavPath(dir + ".wav" + sub, idx) == dir + (".wav" + (rest + ".wav")); }
      ReplaceAll(dir + (".wav" + (rest + ".wav")), ".wav", ".npy");
      { ReplaceSkipsPrefix(dir, ".wav" + (rest + ".wav"), ".wav", ".npy"); }
      dir + ReplaceAll(".wav" + (rest + ".wav"), ".wav", ".npy");
      { ReplaceAtKey(".wav", rest + ".wav", ".npy"); }
      dir + (".npy" + ReplaceAll(rest + ".wav", ".wav", ".npy"));
      { NpyName(rest); }
      dir + (".npy" + ((sub + "/chunk_" + Format04(idx)) + ".npy"));
      { Regroup6(dir, ".npy", sub, "/chunk_", Format04(idx), ".npy"); }
      dir + ".npy" + sub + "/chunk_" + Format04(idx) + ".npy";
    }
  }

  lemma Regroup6(a: string, b: string, c: string, d: string, e: string, f: string)
    ensures a + (b + ((c + d + e) + f)) == a + b + c + d + e + f
  {
  }

  /** An occurrence of the key at the front is replaced. */
  lemma ReplaceAtKey(key: string, t: string, val: string)
    requires key != []
    ensures ReplaceAll(key + t, key, val) == val + ReplaceAll(t, key, val)
  {
    assert (key + t)[..|key|] == key;
    assert (key + t)[|key|..] == t;
  }

  // ---------------------------------------------------------------------
  // The saved audio
  // ---------------------------------------------------------------------

  /** A path holds audio afterwards exactly when it held audio before or some
      outcome saved there. */
  lemma {:induction false} StoreKeys(audio: map<string, Decoded>, outcomes: seq<Outcome>, path: string)
    ensures path in Store(audio, outcomes) <==>
      path in audio || exists i :: 0 <= i < |outcomes| && outcomes[i].Saved? && outcomes[i].path == path
  {
    if outcomes != [] {
      var init := outcomes[..|outcomes| - 1];
      StoreKeys(audio, init, path);
      assert forall i :: 0 <= i < |init| ==> init[i] == outcomes[i];
    }
  }

  /** A path no outcome saves to keeps what it held. */
  lemma {:induction false} StoreUntouched(audio: map<string, Decoded>, outcomes: seq<Outcome>, path: string)
    requires path in audio
    requires forall i :: 0 <= i < |outcomes| && outcomes[i].Saved? ==> outcomes[i].path != path
    ensures path in Store(audio, outcomes) && Store(audio, outcomes)[path] == audio[path]
  {
    if outcomes != [] {
      var init := outcomes[..|outcomes| - 1];
      assert forall i :: 0 <= i < |init| ==> init[i] == outcomes[i];
      StoreUntouched(audio, init, path);
    }
  }

  /** An outcome that no later outcome overwrites is what the path holds at the end. */
  lemma {:induction false} StoreLatest(audio: map<string, Decoded>, outcomes: seq<Outcome>, i: nat)
    requires i < |outcomes| && outcomes[i].Saved?
    requires forall j :: i < j < |outcomes| && outcomes[j].Saved? ==> outcomes[j].path != outcomes[i].path
    ensures outcomes[i].path in Store(audio, outcomes)
    ensures Store(audio, outcomes)[outcomes[i].path] == outcomes[i].sound
  {
    var init := outcomes[..|outcomes| - 1];
    if i < |outcomes| - 1 {
      assert forall j :: 0 <= j < |init| ==> init[j] == outcomes[j];
      StoreLatest(audio, init, i);
    }
  }

  /** No two entries of the manifest carry the same index. */
  predicate DistinctIndices(manifest: seq<Entry>) {
    forall i, j :: 0 <= i < j < |manifest| ==> manifest[i].idx != manifest[j].idx
  }

  /** When indices are distinct and names are well formed, every entry whose
      text is readable ends up with its own decoded text saved under its own name. */
  lemma SavedAudio(manifest: seq<Entry>, texts: map<string, TextFile>, outDir: string, hasSoundfile: bool,
                   audio: map<string, Decoded>, i: nat)
    requires DistinctIndices(manifest)
    requires hasSoundfile || '.' !in outDir
    requires i < |manifest| && manifest[i].textFile in texts && texts[manifest[i].textFile].Readable?
    ensures var out := Store(audio, Outcomes(manifest, texts, outDir, hasSoundfile));
      var path := outDir + "/chunk_" + Format04(manifest[i].idx) + (if hasSoundfile then ".wav" else ".npy");
      path in out && out[path] == Decode(texts[manifest[i].textFile].text)
  {
    var outcomes := Outcomes(manifest, texts, outDir, hasSoundfile);
    OutputPathShape(outDir, manifest[i].idx, hasSoundfile);
    forall j | i < j < |outcomes| && outcomes[j].Saved?
      ensures outcomes[j].path != outcomes[i].path
    {
      if outcomes[j].path == outcomes[i].path {
        OutputPathInjective(outDir, manifest[i].idx, manifest[j].idx, hasSoundfile);
      }
    }
    StoreLatest(audio, outcomes, i);
  }

  /** An entry whose text file is missing saves nothing: its output name
      keeps whatever it held (nothing, if it held nothing). */
  lemma MissingTextSavesNothing(manifest: seq<Entry>, texts: map<string, TextFile>, outDir: string, hasSoundfile: bool,
                                audio: map<string, Decoded>, i: nat)
    requires DistinctIndices(manifest)
    requires hasSoundfile || '.' !in outDir
    requires i < |manifest| && manifest[i].textFile !in texts
    ensures var out := Store(audio, Outcomes(manifest, texts, outDir, hasSoundfile));
      var path := OutputPath(outDir, manifest[i].idx, hasSoundfile);
      (path in out <==> path in audio) && (path in audio ==> out[path] == audio[path])
  {
    var outcomes := Outcomes(manifest, texts, outDir, hasSoundfile);
    var path := OutputPath(outDir, manifest[i].idx, hasSoundfile);
    forall j | 0 <= j < |outcomes| && outcomes[j].Saved?
      ensures outcomes[j].path != path
    {
      if outcomes[j].path == path {
        OutputPathInjective(outDir, manifest[i].idx, manifest[j].idx, hasSoundfile);
      }
    }
    StoreKeys(audio, outcomes, path);
    if path in audio {
      StoreUntouched(audio, outcomes, path);
    }
  }

  /** Paths that are no entry's output keep their audio. */
  lemma OtherFilesUnchanged(manifest: seq<Entry>, texts: map<string, TextFile>, outDir: string, hasSoundfile: bool,
                            audio: map<string, Decoded>, path: string)
    requires path in audio
    requires forall i :: 0 <= i < |manifest| ==> path != OutputPath(outDir, manifest[i].idx, hasSoundfile)
    ensures var out := Store(audio, Outcomes(manifest, texts, outDir, hasSoundfile));
      path in out && out[path] == audio[path]
  {
    StoreUntouched(audio, Outcomes(manifest, texts, outDir, hasSoundfile), path);
  }
}

=== FILE: tts_enhanced.dfy ===
/** The model store, the voice-clone store and the engine's model cache of
    the enhanced TTS layer. The file system is abstracted: the model store
    is the set of model directories that exist, the clone store a map from
    clone directory name to the metadata saved in it. */
module TtsEnhanced {
  import opened Wrappers
  import opened Strings

  // ---------------------------------------------------------------------
  // Model registry and model directories
  // ---------------------------------------------------------------------

  /** A registry record (the size in gigabytes is left out). */
  datatype ModelInfo = ModelInfo(description: string, files: seq<string>, languages: seq<string>)

  /** Tier name to model name to record. */
  type Registry = map<string, map<string, ModelInfo>>

  /** What `list_available_models` returns: the whole registry, or the
      models of one tier. */
  datatype Listing = AllTiers(tiers: Registry) | OneTier(models: map<string, ModelInfo>)

  const StudioModels: map<string, ModelInfo> := map[
    "coqui/XTTS-v2" := ModelInfo("Multilingual TTS with voice cloning",
      ["model.pth", "config.json", "vocab.json"],
      ["en", "es", "fr", "de", "it", "pt", "pl", "tr", "ru", "nl", "cs", "ar", "zh-cn", "ja", "hu", "ko"]),
    "microsoft/speecht5_tts" := ModelInfo("SpeechT5 TTS model",
      ["pytorch_model.bin", "config.json"], ["en"]),
    "facebook/mms-tts" := ModelInfo("Massively Multilingual Speech TTS",
      ["pytorch_model.bin", "config.json"], ["en", "es", "fr", "de", "it", "pt", "ru", "zh", "ja", "ko"])
  ]

  const FastModels: map<string, ModelInfo> := map[
    "rhasspy/piper-voices" := ModelInfo("Fast CPU TTS voices",
      ["model.onnx", "model.onnx.json"], ["en", "es", "fr", "de", "it", "pt"]),
    "espnet/kan-bayashi_ljspeech_vits" := ModelInfo("VITS-based fast TTS",
      ["model.pth", "config.yaml"], ["en"])
  ]

  const DefaultRegistry: Registry := map["studio" := StudioModels, "fast" := FastModels]

  /** A Python string argument is truthy when it is given and not empty. */
  predicate Truthy(tier: Option<string>) {
    tier.Some? && tier.value != ""
  }

  /** The directory of a model: `models_dir/tier/` and the model name with
      every `/` made `_`. Download and removal both use it. */
  function ModelDir(modelsDir: string, tier: string, name: string): string {
    modelsDir + "/" + tier + "/" + ReplaceAll(name, "/", "_")
  }

  /** A model directory sits exactly one level below its tier directory, and
      its name is as long as the model name. */
  lemma ModelDirShape(modelsDir: string, tier: string, name: string)
    ensures var leaf := ModelDir(modelsDir, tier, name)[|modelsDir| + |tier| + 2..];
      ModelDir(modelsDir, tier, name) == modelsDir + "/" + tier + "/" + leaf
      && '/' !in leaf && |leaf| == |name|
  {
    var leaf := ReplaceAll(name, "/", "_");
    ReplaceRemovesChar(name, '/', "_");
    ReplaceCharByChar(name, '/', '_');
    assert ModelDir(modelsDir, tier, name) == (modelsDir + "/" + tier + "/") + leaf;
  }

  /** Names that differ only by `/` versus `_` share a directory: removing
      one removes the other. */
  lemma ModelDirCollision(modelsDir: string, tier: string)
    ensures ModelDir(modelsDir, tier, "a/b") == ModelDir(modelsDir, tier, "a_b")
  {
    ReplaceCharByChar("a/b", '/', '_');
    ReplaceCharByChar("a_b", '/', '_');
    assert ReplaceAll("a/b", "/", "_") == ReplaceAll("a_b", "/", "_");
  }

  /** Within a tier, the registry's models have distinct directories. */
  lemma RegistryDirsDistinct(modelsDir: string, tier: string, a: string, b: string)
    requires tier in DefaultRegistry && a in DefaultRegistry[tier] && b in DefaultRegistry[tier] && a != b
    ensures ModelDir(modelsDir, tier, a) != ModelDir(modelsDir, tier, b)
  {
    ModelDirShape(modelsDir, tier, a);
    ModelDirShape(modelsDir, tier, b);
    assert |a| != |b| by {
      if tier == "studio" {
        StudioNameLengths(a);
        StudioNameLengths(b);
      } else {
        FastNameLengths(a);
        FastNameLengths(b);
      }
    }
  }

  lemma StudioNameLengths(name: string)
    requires name in StudioModels
    ensures (name == "coqui/XTTS-v2" && |name| == 13)
      || (name == "microsoft/speecht5_tts" && |name| == 22)
      || (name == "facebook/mms-tts" && |name| == 16)
  {
  }

  lemma FastNameLengths(name: string)
    requires name in FastModels
    ensures (name == "rhasspy/piper-voices" && |name| == 20)
      || (name == "espnet/kan-bayashi_ljspeech_vits" && |name| == 32)
  {
  }

  /** The model store: the registry and the set of model directories on disk. */
  class ModelManager {
    const modelsDir: string
    const registry: Registry
    var dirs: set<string>

    constructor(modelsDir: string, dirs: set<string>)
      ensures this.modelsDir == modelsDir && registry == DefaultRegistry && this.dirs == dirs
    {
      this.modelsDir := modelsDir;
      registry := DefaultRegistry;
      this.dirs := dirs;
    }

    /** A truthy tier selects that tier's models (none for an unknown tier);
        no tier, or an empty one, selects the whole registry. */
    function ListAvailableModels(tier: Option<string>): (r: Listing)
      ensures !Truthy(tier) <==> r == AllTiers(registry)
      ensures Truthy(tier) && tier.value in registry ==> r == OneTier(registry[tier.value])
      ensures Truthy(tier) && tier.value !in registry ==> r == OneTier(map[])
    {
      if Truthy(tier) then
        if tier.value in registry then OneTier(registry[tier.value]) else OneTier(map[])
      else AllTiers(registry)
    }

    /** Succeeds exactly for a model of the tier's registry and then creates
        its directory; otherwise fails before creating anything. */
    method DownloadModel(name: string, tier: string) returns (ok: bool)
      modifies this
      ensures ok <==> tier in registry && name in registry[tier]
      ensures dirs == if ok then old(dirs) + {ModelDir(modelsDir, tier, name)} else old(dirs)
    {
      if tier !in registry || name !in registry[tier] {
        return false;
      }
      dirs := dirs + {ModelDir(modelsDir, tier, name)};
      ok := true;
    }

    /** Removes the directory download would have created, if it exists. */
    method RemoveModel(name: string, tier: string) returns (ok: bool)
      modifies this
      ensures ok <==> ModelDir(modelsDir, tier, name) in old(dirs)
      ensures dirs == old(dirs) - {ModelDir(modelsDir, tier, name)}
    {
      var dir := ModelDir(modelsDir, tier, name);
      ok := dir in dirs;
      dirs := dirs - {dir};
    }
  }

  // ---------------------------------------------------------------------
  // Voice clones
  // ---------------------------------------------------------------------

  /** What `voice.json` records about a clone (the creation path is left out). */
  datatype VoiceMeta = VoiceMeta(name: string, language: string, gender: string, style: string)

  /** A clone as listed: its metadata, its id (the directory name) and its path. */
  datatype ClonedVoice = ClonedVoice(id: string, path: string, meta: VoiceMeta)

  /** The directory name of a clone: spaces become `_`, then ASCII letters are lowered. */
  function CloneDirName(voiceName: string): (d: string)
    ensures |d| == |voiceName|
    ensures ' ' !in d
    ensures forall i :: 0 <= i < |d| ==> !('A' <= d[i] <= 'Z')
  {
    ReplaceCharByChar(voiceName, ' ', '_');
    Lower(ReplaceAll(voiceName, " ", "_"))
  }

  /** A directory name is its own directory name. */
  lemma CloneDirNameIdempotent(voiceName: string)
    ensures CloneDirName(CloneDirName(voiceName)) == CloneDirName(voiceName)
  {
    var d := CloneDirName(voiceName);
    ReplaceCharByChar(d, ' ', '_');
    OccursChar(' ', d);
    ReplaceAbsent(d, " ", "_");
  }

  /** What a single character of a voice name becomes in its directory name. */
  function DirChar(c: char): char {
    LowerChar(if c == ' ' then '_' else c)
  }

  /** Each character of a directory name comes from the matching character
      of the voice name alone. */
  lemma CloneDirNameChars(voiceName: string)
    ensures forall i :: 0 <= i < |voiceName| ==> CloneDirName(voiceName)[i] == DirChar(voiceName[i])
  {
    ReplaceCharByChar(voiceName, ' ', '_');
  }

  lemma DirCharIgnoresCase(c: char)
    ensures DirChar(UpperChar(c)) == DirChar(c) && DirChar(LowerChar(c)) == DirChar(c)
  {
  }

  /** Names that differ only in the case of their letters share one clone. */
  lemma CloneDirNameIgnoresCase(voiceName: string)
    ensures CloneDirName(Upper(voiceName)) == CloneDirName(voiceName)
    ensures CloneDirName(Lower(voiceName)) == CloneDirName(voiceName)
  {
    var d, u, l := CloneDirName(voiceName), Upper(voiceName), Lower(voiceName);
    CloneDirNameChars(voiceName);
    assert CloneDirName(u) == d by {
      CloneDirNameChars(u);
      forall i | 0 <= i < |d| ensures CloneDirName(u)[i] == d[i] {
        DirCharIgnoresCase(voiceName[i]);
      }
    }
    assert CloneDirName(l) == d by {
      CloneDirNameChars(l);
      forall i | 0 <= i < |d| ensures CloneDirName(l)[i] == d[i] {
        DirCharIgnoresCase(voiceName[i]);
      }
    }
  }

  /** A space and an underscore at the same place lead to the same clone. */
  lemma CloneDirNameSpaceIsUnderscore(before: string, after: string)
    ensures CloneDirName(before + " " + after) == CloneDirName(before + "_" + after)
  {
    var a, b := before + " " + after, before + "_" + after;
    CloneDirNameChars(a);
    CloneDirNameChars(b);
    forall i | 0 <= i < |a| ensures CloneDirName(a)[i] == CloneDirName(b)[i] {
      if i < |before| {
        assert a[i] == before[i] == b[i];
      } else if i > |before| {
        assert a[i] == after[i - |before| - 1] == b[i];
      }
    }
  }

  /** The clone store: clone directory name to the metadata saved there. */
  class VoiceCloner {
    const voicesDir: string
    var clones: map<string, VoiceMeta>

    constructor(voicesDir: string, clones: map<string, VoiceMeta>)
      ensures this.voicesDir == voicesDir && this.clones == clones
    {
      this.voicesDir := voicesDir;
      this.clones := clones;
    }

    /** Fails, changing nothing, when the sample does not exist; otherwise
        saves the metadata under the clone's directory name, replacing any
        clone already there. */
    method CreateVoiceClone(audioPath: string, audioFiles: set<string>, voiceName: string,
                            language: string, gender: string, style: string) returns (ok: bool)
      modifies this
      ensures ok <==> audioPath in audioFiles
      ensures clones == if ok then old(clones)[CloneDirName(voiceName) := VoiceMeta(voiceName, language, gender, style)]
                        else old(clones)
    {
      if audioPath !in audioFiles {
        return false;
      }
      clones := clones[CloneDirName(voiceName) := VoiceMeta(voiceName, language, gender, style)];
      ok := true;
    }

    /** The entry listing reports for the clone saved under `id`. */
    function Listed(cs: map<string, VoiceMeta>, id: string): ClonedVoice
      requires id in cs
    {
      ClonedVoice(id, voicesDir + "/" + id, cs[id])
    }

    /** Lists every clone once, in no particular order, with its directory
        name as id. */
    method ListVoiceClones() returns (voices: seq<ClonedVoice>)
      ensures |voices| == |clones|
      ensures forall i :: 0 <= i < |voices| ==>
        voices[i].id in clones && voices[i] == Listed(clones, voices[i].id)
      ensures forall id :: id in clones ==> exists i :: 0 <= i < |voices| && voices[i].id == id
      ensures forall i, j :: 0 <= i < j < |voices| ==> voices[i].id != voices[j].id
    {
      var cs := clones;
      var left := cs.Keys;
      voices := [];
      while left != {}
        invariant left <= cs.Keys
        invariant |voices| + |left| == |cs|
        invariant forall i :: 0 <= i < |voices| ==>
          voices[i].id in cs.Keys - left && voices[i] == Listed(cs, voices[i].id)
        invariant forall id :: id in cs.Keys - left ==> exists i :: 0 <= i < |voices| && voices[i].id == id
        invariant forall i, j :: 0 <= i < j < |voices| ==> voices[i].id != voices[j].id
        decreases |left|
      {
        var id :| id in left;
        var before, leftBefore := voices, left;
        voices := voices + [Listed(cs, id)];
        left := left - {id};
        forall x | x in cs.Keys - left
          ensures exists i :: 0 <= i < |voices| && voices[i].id == x
        {
          if x == id {
            assert voices[|before|].id == x;
          } else {
            assert x in cs.Keys - leftBefore;
            var i :| 0 <= i < |before| && before[i].id == x;
            assert voices[i].id == x;
          }
        }
      }
      assert cs.Keys - left == cs.Keys;
    }

    /** Removes the clone whose listed id is given, if there is one. */
    method RemoveVoiceClone(voiceId: string) returns (ok: bool)
      modifies this
      ensures ok <==> voiceId in old(clones)
      ensures clones == old(clones) - {voiceId}
    {
      ok := voiceId in clones;
      clones := clones - {voiceId};
    }
  }

  // ---------------------------------------------------------------------
  // The engine: model cache and voice list
  // ---------------------------------------------------------------------

  /** The placeholder record of a loaded model. */
  datatype LoadedModel = LoadedModel(name: string, tier: string, device: string, status: string)

  /** A voice as offered to the user; `kind` is present only for clones. */
  datatype Voice = Voice(id: string, name: string, language: string, gender: string, kind: Option<string>)

  /** The device a load request runs on: `auto` means the GPU for the studio
      tier and the CPU for any other; an explicit device is kept. */
  function ResolveDevice(tier: string, device: string): (d: string)
    ensures device != "auto" ==> d == device
    ensures device == "auto" ==> (d == "cuda" <==> tier == "studio") && (d == "cpu" <==> tier != "studio")
  {
    if device == "auto" then (if tier == "studio" then "cuda" else "cpu") else device
  }

  /** The cache key of a tier and a model name. */
  function ModelKey(tier: string, name: string): string {
    tier + "_" + name
  }

  /** With a tier that contains no `_`, the first `_` of the key is the one
      after the tier. */
  lemma KeyFirstUnderscore(tier: string, name: string)
    requires '_' !in tier
    ensures ModelKey(tier, name)[|tier|] == '_'
    ensures forall i :: 0 <= i < |tier| ==> ModelKey(tier, name)[i] != '_'
  {
    assert forall i :: 0 <= i < |tier| ==> ModelKey(tier, name)[i] == tier[i];
  }

  /** With tiers that contain no `_`, distinct requests have distinct keys. */
  lemma ModelKeyInjective(tier1: string, name1: string, tier2: string, name2: string)
    requires '_' !in tier1 && '_' !in tier2
    requires ModelKey(tier1, name1) == ModelKey(tier2, name2)
    ensures tier1 == tier2 && name1 == name2
  {
    var k := ModelKey(tier1, name1);
    KeyFirstUnderscore(tier1, name1);
    KeyFirstUnderscore(tier2, name2);
    assert |tier1| == |tier2|;
    assert tier1 == k[..|tier1|] == tier2;
    assert name1 == k[|tier1| + 1..] == name2;
  }

  /** Otherwise two different requests can share a key. */
  lemma ModelKeyCollision()
    ensures ModelKey("a_b", "c") == ModelKey("a", "b_c")
  {
  }

  /** The three voices offered before any clone. */
  const DefaultVoices: seq<Voice> := [
    Voice("en_female_01", "English Female 1", "en", "female", None),
    Voice("en_male_01", "English Male 1", "en", "male", None),
    Voice("en_female_02", "English Female 2", "en", "female", None)
  ]

  /** The voice offered for a listed clone. */
  function CloneVoice(clone: ClonedVoice): Voice {
    Voice("clone_" + clone.id, clone.meta.name + " (Clone)", clone.meta.language, clone.meta.gender, Some("clone"))
  }

  /** Voice ids are all distinct when the clone ids are. */
  lemma VoiceIdsDistinct(clones: seq<ClonedVoice>, voices: seq<Voice>)
    requires forall i, j :: 0 <= i < j < |clones| ==> clones[i].id != clones[j].id
    requires |voices| == 3 + |clones| && voices[..3] == DefaultVoices
    requires forall i :: 0 <= i < |clones| ==> voices[3 + i] == CloneVoice(clones[i])
    ensures forall i, j :: 0 <= i < j < |voices| ==> voices[i].id != voices[j].id
  {
    forall i, j | 0 <= i < j < |voices|
      ensures voices[i].id != voices[j].id
    {
      if j >= 3 {
        var c := CloneVoice(clones[j - 3]);
        if i < 3 {
          assert voices[i] == DefaultVoices[i];
          assert voices[i].id[0] == 'e' != c.id[0];
        } else {
          var d := CloneVoice(clones[i - 3]);
          assert d.id[6..] != c.id[6..];
        }
      } else {
        assert voices[i] == DefaultVoices[i] && voices[j] == DefaultVoices[j];
      }
    }
  }

  /** The engine's state: the cache of loaded models. */
  class TtsEngine {
    var loadedModels: map<string, LoadedModel>

    constructor()
      ensures loadedModels == map[]
    {
      loadedModels := map[];
    }

    /** A cache hit returns the stored record and changes nothing (whatever
        device was asked for); a miss stores and returns a fresh record and
        leaves every other entry as it was. Either way the key then holds the
        returned record, so a repeated request returns the same record. */
    method LoadModel(name: string, tier: string, device: string) returns (model: LoadedModel)
      modifies this
      ensures ModelKey(tier, name) in loadedModels && loadedModels[ModelKey(tier, name)] == model
      ensures ModelKey(tier, name) in old(loadedModels) ==>
        model == old(loadedModels)[ModelKey(tier, name)] && loadedModels == old(loadedModels)
      ensures ModelKey(tier, name) !in old(loadedModels) ==>
        model == LoadedModel(name, tier, ResolveDevice(tier, device), "loaded")
        && loadedModels == old(loadedModels)[ModelKey(tier, name) := model]
    {
      var dev := ResolveDevice(tier, device);
      var key := ModelKey(tier, name);
      if key in loadedModels {
        return loadedModels[key];
      }
      model := LoadedModel(name, tier, dev, "loaded");
      loadedModels := loadedModels[key := model];
    }

    /** The three default voices, then one voice per clone in list order. */
    method GetAvailableVoices(clones: seq<ClonedVoice>) returns (voices: seq<Voice>)
      ensures |voices| == 3 + |clones|
      ensures voices[..3] == DefaultVoices
      ensures forall i :: 0 <= i < |clones| ==> voices[3 + i] == CloneVoice(clones[i])
    {
      voices := DefaultVoices;
      for i := 0 to |clones|
        invariant |voices| == 3 + i
        invariant voices[..3] == DefaultVoices
        invariant forall k :: 0 <= k < i ==> voices[3 + k] == CloneVoice(clones[k])
      {
        voices := voices + [CloneVoice(clones[i])];
      }
    }
  }
}

=== FILE: uploads.dfy ===
/** The upload-name check of the web front end: a name is accepted when it
    has a dot and the text after its last dot, lowered, is an allowed
    extension. */
module Uploads {
  import opened Strings

  const AllowedExtensions: set<string> := {"epub"}

  /** `filename.rsplit('.', 1)[1]` for a name with a dot, and the whole name
      without one: the longest suffix that holds no dot. */
  function AfterLastDot(filename: string): (ext: string)
    ensures |ext| <= |filename| && ext == filename[|filename| - |ext|..]
    ensures '.' !in ext
    ensures '.' in filename ==> filename[|filename| - |ext| - 1] == '.'
    ensures '.' !in filename ==> ext == filename
  {
    if filename == [] then []
    else if filename[|filename| - 1] == '.' then []
    else
      var init, c := filename[..|filename| - 1], filename[|filename| - 1];
      var e := AfterLastDot(init);
      assert filename == init + [c];
      assert filename[|init| - |e|..] == e + [c] by {
        SliceAppend(init, [c], |init| - |e|);
      }
      assert '.' in filename ==> '.' in init && filename[|init| - |e| - 1] == init[|init| - |e| - 1];
      e + [c]
  }

  function AllowedFile(filename: string): bool {
    '.' in filename && Lower(AfterLastDot(filename)) in AllowedExtensions
  }

  /** A name is accepted exactly when it is some text, a dot, and a dot-free
      extension that lowers to `epub`. */
  lemma AllowedFileIff(filename: string)
    ensures AllowedFile(filename) <==>
      exists stem, ext :: filename == stem + "." + ext && '.' !in ext && Lower(ext) == "epub"
  {
    if AllowedFile(filename) {
      var ext := AfterLastDot(filename);
      var stem := filename[..|filename| - |ext| - 1];
      assert filename == stem + "." + ext;
    }
    if exists stem, ext :: filename == stem + "." + ext && '.' !in ext && Lower(ext) == "epub" {
      var stem, ext :| filename == stem + "." + ext && '.' !in ext && Lower(ext) == "epub";
      AcceptsExtension(stem, ext);
    }
  }

  /** With a dot-free extension, acceptance depends on the extension alone. */
  lemma AcceptsExtension(stem: string, ext: string)
    requires '.' !in ext
    ensures AllowedFile(stem + "." + ext) <==> Lower(ext) == "epub"
  {
    SplitAtLastDot(stem, ext);
    assert (stem + "." + ext)[|stem|] == '.';
  }

  /** The text after the last dot of `stem + "." + ext` is `ext` when `ext` has no dot. */
  lemma {:induction false} SplitAtLastDot(stem: string, ext: string)
    requires '.' !in ext
    ensures AfterLastDot(stem + "." + ext) == ext
    decreases |ext|
  {
    var s := stem + "." + ext;
    if ext == [] {
      assert s[|s| - 1] == '.';
    } else {
      var init, c := ext[..|ext| - 1], ext[|ext| - 1];
      assert ext == init + [c];
      assert s[..|s| - 1] == stem + "." + init && s[|s| - 1] == c;
      SplitAtLastDot(stem, init);
    }
  }

  /** Whatever comes before it, an allowed last extension is accepted, even
      after another extension or with nothing before the dot. */
  lemma AllowedExtensionAccepted(stem: string, ext: string)
    requires ext in AllowedExtensions
    ensures AllowedFile(stem + "." + ext)
  {
    assert ext == "epub";
    assert '.' !in ext && forall i :: 0 <= i < |ext| ==> !('A' <= ext[i] <= 'Z');
    LowerKeeps(ext);
    AcceptsExtension(stem, ext);
  }

  /** The extension is compared without regard to case: upper-casing it
      changes nothing. */
  lemma CaseIgnored(stem: string, ext: string)
    requires '.' !in ext
    ensures AllowedFile(stem + "." + Upper(ext)) <==> AllowedFile(stem + "." + ext)
  {
    assert '.' !in Upper(ext) by {
      forall i | 0 <= i < |ext| ensures Upper(ext)[i] != '.' {
        assert ext[i] != '.';
      }
    }
    AcceptsExtension(stem, ext);
    AcceptsExtension(stem, Upper(ext));
    LowerOfUpper(ext);
  }

  /** Only the last extension counts: an `epub` before it does not help. */
  lemma ZipRejected(stem: string)
    ensures !AllowedFile(stem + ".zip")
  {
    var zip := "zip";
    assert Lower(zip) != "epub" by { assert |Lower(zip)| == 3; }
    AcceptsExtension(stem, zip);
    assert stem + ".zip" == stem + "." + zip;
  }

  /** A trailing dot leaves an empty extension, which is rejected. */
  lemma TrailingDotRejected(stem: string)
    ensures !AllowedFile(stem + ".")
  {
    AcceptsExtension(stem, []);
    assert stem + "." + [] == stem + ".";
  }
}

=== FILE: wrappers.dfy ===
/** Optional values, for lookups and pattern matches that can fail. */
module Wrappers {
  datatype Option<T> = None | Some(value: T)
}
